=== FILE: README.md ===
# Graph store: objects, associations and cached keyset listings

This project is a Dafny model of the core of a small TAO-style graph backend. The backend stores typed **objects** in an `objects` table, with ids issued by an AUTO_INCREMENT counter. It stores typed, directed **associations** (edges) in an `associations` table, keyed by (source, type, destination). Edges are soft-deleted through a status column. The active edges of one (source, type) are listed newest first with keyset pagination: pages are ordered by (created_at DESC, destination_id DESC) and continue from an opaque `"<createdAt>|<destinationId>"` cursor. Each listing page is cached under `assoc:<source>:<type>:<cursor>:<limit>`. Every write to an edge removes the cached pages of its (source, type) by glob pattern.

The database and the cache are one immutable value, `Schema.Store`:

- objects by id, and the next AUTO_INCREMENT id;
- association rows by primary key;
- cached pages by key.

Each handler is a pure function from a store and a request to a new store and a reply (or an HTTP error). The listing handler is a method, because it sorts.

The modules follow the program's structure:

- **Validation:**
  - `Js`: request values and JavaScript coercions.
  - `Decimal`: rendering and parsing numbers as text.
  - `CommonValidators`: ids, limits and cursors.
  - `ObjectValidators` and `AssociationValidators`: type allow-lists and payload rules.
  - `Constants`: the allow-lists and limits.
  - `Http`: the error replies.
- **Storage and listing:**
  - `ObjectService`: the objects table.
  - `AssociationService`: the cursor codec, the edge state machine, the count and the cache-first listing.
  - `CacheKeys`: the key scheme and glob invalidation.
  - `Pagination`: the keyset order and the pages of a LIMIT query.
- **Handlers and request sequences:**
  - `ObjectController` and `AssociationController`: the request handlers.
  - `Api`: the route table, plus any sequence of requests.
- **Properties across several operations:**
  - `AssociationLemmas` and `ControllerLemmas`: properties that span several operations.
  - `Chaining`: following `nextCursor` until the end.
  - `CacheFreshness`: which cached pages are guaranteed current.

Two store invariants hold from the empty database across any sequence of requests (`Api.RunFromEmpty`):

- `Schema.Valid` says that every object id and every edge endpoint lies below the AUTO_INCREMENT counter, every stored object type is on the allow-list, and every edge status is 1 (active) or 0 (deleted).
- `CacheFreshness.FreshFirstPages` says that every cached first page is the page the table gives now.

`Api.Run` and `Api.RunFromEmpty` also return a ghost trace of stores. It ties each request's reply and next store to `Api.Answers`, which is the answer of the handler named by the request's route.

Ids are never reused. Every handler keeps the counter from going back (`Api.Handle`, `Api.Run`), and a create issues the counter's value (`ObjectService.CreateObject`). From these two facts, `ObjectService.IdsNeverReused` proves that any later create gets a larger id than every earlier one.

**Continuation pages share one cache key.** The key template `assoc:${sourceId}:${associationType}:${cursor || 'start'}:${limit}` (services/associationService.js:109) reads as one key per (source, type, cursor, limit). The code does not give that:

- The key template receives the *decoded* cursor, which is an object.
- A template literal renders any object as `[object Object]`.
- So every continuation page of a (source, type, limit) has one and the same key, whichever cursor it continues from.

The model follows the code. The key is built over the rendered text, and `CacheKeys.ContinuationKeysCoincide` states the collision. As a result, only first pages are proved fresh. The complete-walk property (`Chaining.WalkAll`) is proved on the uncached query path, where each page is computed from its own cursor.

## Model

| member | source | states |
|---|---|---|
| Js.OrEmptyObject | services/objectService.js:6 | the stored payload is the request payload when it is truthy, and the empty object when it is falsy |
| Decimal.StringToNumberOfNat | services/associationService.js:10 | `Number` of the decimal text of a natural number is that number again |
| Decimal.NatToStringInjective | services/associationService.js:109 | distinct ids render as distinct texts, so ids inside keys identify their object |
| Decimal.ToNumber | validators/common.js:5 | `Number(v)` of a request value: a JSON number keeps its value and a string is read as decimal text |
| CommonValidators.ParseId | validators/common.js:4-10 | an id is accepted exactly when `Number(v)` is an integer above zero; the accepted id equals it; otherwise 400 "Invalid <field>" |
| CommonValidators.ParseLimit | validators/common.js:12-21 | an absent limit is 20; otherwise accepted exactly when it is a positive integer; the result is always within 1..100, and is the value capped at 100; otherwise 400 "Invalid limit" |
| CommonValidators.SplitJoin | validators/common.js:30 | splitting at the separator undoes joining pieces that do not contain it |
| CommonValidators.JoinSplit | validators/common.js:30 | joining the pieces of a split gives back the original text, so a split loses no character |
| CommonValidators.ParseCursorText | validators/common.js:30-39 | a cursor text decodes exactly when it splits into two `\|`-separated parts, the second a positive integer and the first non-empty, and then yields those parts; otherwise the wrong number of parts is "Invalid cursor", a bad id part is "Invalid cursor destinationId" (checked before the timestamp), and an empty timestamp is "Invalid cursor" |
| CommonValidators.ParseCursorTextReconstructs | validators/common.js:30-39 | a decoded cursor is exactly its timestamp text, a `\|`, and a text whose number is the decoded id |
| CommonValidators.ParseCursor | validators/common.js:23-40 | a falsy cursor means "first page" (not an error); a non-string is 400 "Invalid cursor"; a non-empty string is accepted exactly when its text decodes, and otherwise fails with that decoding's error |
| CommonValidators.CursorIdCheckedFirst | validators/common.js:35-37 | a cursor with an empty timestamp and a bad id part is refused for its id, because the id is checked first |
| CommonValidators.ParseCursorOfPair | validators/common.js:23-40 | a well-formed `ts\|id` string decodes to exactly (ts, id) |
| AssociationService.BuildCursor | services/associationService.js:4-11 | a cursor is produced only for a row that has both a creation time and a destination id |
| AssociationService.BuildCursorNull | services/associationService.js:5-7 | no cursor exactly when the row is missing, or its creation time or destination id is missing or falsy |
| AssociationService.CursorRoundTrip | services/associationService.js:4-11 | decoding an encoded cursor gives back its timestamp text and destination id |
| AssociationService.ItemCursorRoundTrip | services/associationService.js:148 | the continuation cursor built from a listed row decodes to that row's own position in the listing order |
| AssociationService.EnsureObjectsExist | services/associationService.js:27-37 | succeeds exactly when both endpoint objects exist; a missing source is reported before a missing destination |
| AssociationService.CreateAssociation | services/associationService.js:39-47 | inserts succeed exactly when the triple is not stored, whether or not it was soft-deleted; the new row is active, created now, and carries `data \|\| {}`; no other edge changes; the pair's cached pages are dropped; a duplicate changes nothing |
| AssociationService.GetAssociation | services/associationService.js:49-60 | a read finds the edge exactly when it is stored and active, and then returns that row |
| AssociationService.UpdateAssociation | services/associationService.js:62-89 | reports whether the triple is stored, whatever its status; only the supplied fields change; the creation time and every other edge are kept; the pair's cached pages are dropped only when the edge exists |
| AssociationService.SoftDeleteAssociation | services/associationService.js:91-106 | reports whether the triple is stored; sets its status to 0 and keeps the row; no other edge changes; the pair's cached pages are dropped only when the edge exists |
| AssociationService.ActiveKeys | services/associationService.js:155-166 | the counted keys are exactly the stored, active edges of (source, type) |
| AssociationService.CountAssociations | services/associationService.js:155-166 | the count equals the number of rows in a complete listing of (source, type) |
| AssociationService.ImageCardinality | services/associationService.js:137-144 | distinct keys of one pair give distinct listed rows |
| AssociationService.ActiveKeysListed | services/associationService.js:155-166 | the active keys of a pair are as many as the rows of its complete listing |
| AssociationService.Candidates | services/associationService.js:115-146 | the rows a listing query may return are exactly the active rows of (source, type) strictly below the cursor; there is at most one row per destination |
| AssociationService.ListUncached | services/associationService.js:115-148 | the uncached page is the first `limit` candidates in descending order; a continuation cursor is present only on a full page and is built from its last row |
| AssociationService.ListAssociations | services/associationService.js:108-153 | a cached page is returned as stored, without touching the tables; otherwise the computed page is stored under its key and returned |
| AssociationValidators.ValidateAssociationType | validators/associations.js:11-16 | accepted exactly when the value is an allow-listed string; otherwise 400 "Invalid associationType" |
| AssociationValidators.ValidateAssociationData | validators/associations.js:18-68 | an undefined payload passes as absent; otherwise it must be a plain object whose type-specific field, if present, is a string; the payload is returned unchanged; each failure gives the right message |
| AssociationValidators.EveryAllowedTypeHasRule | validators/associations.js:25-65 | every allow-listed association type checks exactly one payload field |
| AssociationValidators.OtherKeysUnconstrained | validators/associations.js:25-65 | keys other than the checked field never change the verdict |
| AssociationValidators.ParseAssociationStatus | validators/associations.js:70-79 | an undefined status stays undefined; otherwise only the numbers 0 and 1 are accepted; otherwise 400 "Invalid status" |
| ObjectValidators.ValidateObjectType | validators/objects.js:11-16 | accepted exactly when the value is an allow-listed string; otherwise 400 "Invalid objectType" |
| ObjectValidators.FirstFailure | validators/objects.js:21-73 | the error reported is the error of the first rule, in source order, that the payload fails; no error exactly when every rule holds |
| ObjectValidators.ValidateObjectData | validators/objects.js:18-76 | a non-object payload is 400 "Invalid data"; a plain object passes exactly when every rule of its type holds, and is returned unchanged |
| ObjectValidators.UserPayload | validators/objects.js:21-28 | a user passes exactly when name and username are non-blank strings |
| ObjectValidators.PostAndCommentPayload | validators/objects.js:30-37 | a post passes exactly when authorId is a positive integer and body is a non-blank string; a comment has the same rules |
| ObjectValidators.PagePayload | validators/objects.js:39-43 | a page passes exactly when title is a non-blank string |
| ObjectValidators.CheckinPayload | validators/objects.js:45-55 | a checkin passes exactly when userId and placeId are positive integers and caption, if present, is a string |
| ObjectValidators.PlacePayload | validators/objects.js:57-64 | a place passes exactly when name is a non-blank string and city, if present, is a string |
| ObjectValidators.UserNameCheckedFirst | validators/objects.js:21-27 | a user payload with a bad name is reported for the name, whatever the username holds |
| CacheKeys.PageKey | services/associationService.js:109 | every page key of (source, type) starts with that pair's prefix |
| CacheKeys.PatternMatchesPrefix | services/associationService.js:14 | the invalidation pattern of a pair matches a key exactly when the key starts with the pair's prefix |
| CacheKeys.Invalidate | services/associationService.js:13-25 | the keys that survive keep their pages; a key is removed exactly when the pattern matches it |
| CacheKeys.PrefixOwnsKey | services/associationService.js:109 | a pair's prefix starts a page key exactly when the key belongs to that pair |
| CacheKeys.InvalidateRemovesPair | services/associationService.js:13-25 | after invalidation, no page of the pair is cached, whatever its cursor and limit |
| CacheKeys.InvalidateKeepsOtherPairs | services/associationService.js:13-25 | invalidation leaves every page of every other pair exactly as it was |
| CacheKeys.ContinuationKeysCoincide | services/associationService.js:109 | any two cursors give the same continuation key for one (source, type, limit) |
| CacheKeys.FirstPageKeyDiffers | services/associationService.js:109 | a first page and a continuation page never share a key |
| CacheKeys.FirstPageKeyInjective | services/associationService.js:109 | equal first-page keys mean the same source, type and limit |
| CacheKeys.ContinuationKeyNotFirst | services/associationService.js:109 | no continuation key of any pair is the first-page key of any pair |
| CacheKeys.AllowedTypesPlain | config/constants.js:2-10 | allow-listed association types hold no glob metacharacter and no `:` |
| Pagination.SortDesc | services/associationService.js:124 | the rows of one (source, type) are listed in strictly descending (createdAt, destinationId) order, each exactly once |
| Pagination.TakeIsPage | services/associationService.js:124-125 | the first `limit` rows of the descending listing form a LIMIT page: ordered, drawn from the candidates, of length min(limit, count), and ahead of every row left out |
| Pagination.SortedConcat | services/associationService.js:124 | two descending runs, the first wholly before the second, join into a descending run |
| Pagination.SortedDistinctCard | services/associationService.js:124 | a descending listing has no repeated row |
| Pagination.ShortPageIsEverything | services/associationService.js:148 | a page shorter than the limit holds every candidate, so having no cursor there loses nothing |
| AssociationLemmas.CreateCounts | services/associationService.js:39-47 | a create raises its pair's count by one and leaves every other pair's count alone |
| AssociationLemmas.CreateThenGet | services/associationService.js:39-60 | a created edge reads back active, with `data \|\| {}` and its creation time |
| AssociationLemmas.RecreateAfterDeleteConflicts | migrate.js:29 | re-creating a soft-deleted triple is a duplicate: the row stays deleted |
| AssociationLemmas.OtherDestinationStillCreates | migrate.js:29 | the primary key blocks only the same triple; another destination under the same pair still creates |
| AssociationLemmas.SoftDeleteHides | services/associationService.js:91-106 | after a soft delete, the edge is missing from reads and from every listing, and an active edge lowers the count by one |
| AssociationLemmas.SoftDeleteIdempotent | services/associationService.js:91-106 | a second delete succeeds again and changes no row |
| AssociationLemmas.UpdateRestoresDeleted | services/associationService.js:62-89 | an update that sets status 1 brings a soft-deleted edge back to reads |
| AssociationLemmas.DeletedReadsAsAbsent | services/associationService.js:49-60 | a soft-deleted triple reads the same as an absent one |
| AssociationLemmas.WriteInvalidatesPair | services/associationService.js:13-25 | after a successful create, update or soft delete of an edge, no page of its pair is cached, whatever the cursor and limit, and other pairs' pages are untouched |
| AssociationLemmas.EmptyListing | services/associationService.js:148 | with no candidate, a page is empty and carries no cursor |
| Chaining.NextRemainder | services/associationService.js:123 | after a full page, the rows below its last row are exactly the rows the page did not return |
| Chaining.FullPageShrinks | services/associationService.js:148 | following a full page's cursor strictly shrinks what is left, so the walk ends |
| Chaining.FullPageStep | services/associationService.js:148 | following a full page keeps the visited rows descending, disjoint from the rest, and ahead of them |
| Chaining.LastPageStep | services/associationService.js:148 | a short last page completes the walk: every row has been seen, once each, in order |
| Chaining.NextPage | services/associationService.js:108-153 | one request of the walk, with the cursor sent back through the decoder; it either completes the walk or advances it with a decodable cursor |
| Chaining.WalkAll | services/associationService.js:108-153 | following `nextCursor` from the first page yields every active row of the pair exactly once, in descending order; the number of rows equals the count; only the last page lacks a cursor |
| CacheFreshness.CandidatesOfOtherPair | services/associationService.js:137-144 | changing one edge leaves the listing of every other pair unchanged |
| CacheFreshness.EmptyIsFresh | migrate.js:9-31 | the empty database caches nothing stale |
| CacheFreshness.StoreKeepsFresh | services/associationService.js:151 | storing a freshly computed page keeps every cached first page current |
| CacheFreshness.WriteKeepsFresh | services/associationService.js:13-25 | a write that invalidates its own pair keeps every surviving first page current |
| ObjectService.CreateObject | services/objectService.js:3-9 | the new id is the AUTO_INCREMENT counter's value, so in a valid store it is not in use; the counter moves one past it; the store stays valid exactly when the type is allow-listed; the row holds the type, `data \|\| {}` and now; every other object, every edge and the cache are untouched |
| ObjectService.GetObjectById | services/objectService.js:11-17 | a read finds the object exactly when the id exists, and returns its row |
| ObjectService.UpdateObject | services/objectService.js:19-25 | reports whether the id exists; replaces only the payload; type and creation time are kept; `updated_at` moves only when the payload changes |
| ObjectService.DeleteObject | services/objectService.js:27-30 | reports whether the id existed; the id is gone afterwards; other objects, edges and cached pages are kept |
| ObjectService.CreateThenGetObject | services/objectService.js:3-17 | a created object reads back with its type, payload and creation time |
| ObjectService.DeleteTwice | services/objectService.js:27-30 | a second delete reports absence and changes nothing |
| ObjectService.DeletedObjectIsAbsent | services/objectService.js:11-30 | after a delete, both reads and updates of the id report absence |
| ObjectService.IdsNeverReused | migrate.js:11 | once an object is created, any later create in a store whose counter has not gone back gets a larger id, above every id that existed before |
| ObjectService.CreateAfterDeleteIsFresh | migrate.js:11 | creating right after deleting the previous object still gives a new, larger id, and the store stays valid when the first type was allow-listed |
| ObjectService.UpdateIdempotent | migrate.js:15 | writing back the stored payload changes nothing, including `updated_at` |
| ObjectController.CreateObjectHandler | controllers/objectController.js:6-13 | the type is checked first, then the payload against that type; on success the store is the entity store's create of the type and payload, and the reply carries the fresh id and type; an error changes nothing; validity is kept |
| ObjectController.GetObjectHandler | controllers/objectController.js:15-22 | the path id is parsed first; an absent object is 404 "Object not found"; otherwise the stored row is returned |
| ObjectController.UpdateObjectHandler | controllers/objectController.js:24-40 | the id is parsed, then existence is checked (404) before the payload; the payload is checked against the stored type; an error changes nothing |
| ObjectController.DeleteObjectHandler | controllers/objectController.js:42-49 | the id is parsed; an absent object is 404; otherwise the object is removed |
| AssociationController.OptionalNumber | validators/associations.js:71-74 | an undefined field stays absent; any other value is coerced with `Number` |
| AssociationController.ValidateEdge | controllers/associationController.js:12-14 | sourceId, then destinationId, then type: the first failing check decides the error; on success the parsed ids and type are returned |
| AssociationController.ValidateCreate | controllers/associationController.js:11-15 | the edge checks come first, then the payload against the type's rule |
| AssociationController.CreateAssociationHandler | controllers/associationController.js:10-40 | validation errors first; a missing source, then a missing destination, is 400 "Invalid sourceId"/"Invalid destinationId"; a stored triple, even a deleted one, is 409; otherwise the edge is stored active and its pair's cache is dropped; an error changes nothing |
| AssociationController.GetAssociationHandler | controllers/associationController.js:42-59 | the path is validated in order; an active edge is returned; a deleted or absent one is 404 "Association not found" |
| AssociationController.ValidateUpdate | controllers/associationController.js:62-71 | the order is edge, then status, then payload; a request that sets neither field is 400 "Nothing to update"; a validated request always names a field |
| AssociationController.UpdateAssociationHandler | controllers/associationController.js:61-86 | an absent triple is 404; otherwise the service update is applied, restoring deleted edges too; an error changes nothing |
| AssociationController.DeleteAssociationHandler | controllers/associationController.js:88-105 | an absent triple is 404; otherwise the edge is soft-deleted, and deleting again still succeeds |
| AssociationController.ValidateList | controllers/associationController.js:107-112 | accepted exactly when all four checks pass; otherwise the first failing check in the order source, type, limit, cursor decides the error; the accepted limit lies within 1..100 |
| AssociationController.ListAssociationsHandler | controllers/associationController.js:107-122 | only the cache may change; a rejected request answers the validation error; a hit returns the stored page and leaves the cache as it was; a miss returns the correct page (at most 100 rows, with a cursor only when full) and the cache gains exactly that page under its key; a first page in a fresh cache is always current |
| AssociationController.CountAssociationsHandler | controllers/associationController.js:124-135 | a valid request replies with the number of active edges of (source, type); errors come in source order |
| ControllerLemmas.EdgeValidates | controllers/associationController.js:43-46 | positive ids and an allow-listed type pass, both as JSON numbers and as decimal path text |
| ControllerLemmas.DuplicateCreateConflicts | controllers/associationController.js:32-37 | creating the same edge twice: the second request is 409 and changes nothing |
| ControllerLemmas.RecreateAfterDeleteConflicts | controllers/associationController.js:25-37 | after create and delete, creating the same edge again is 409 |
| ControllerLemmas.DeleteThenGetNotFound | controllers/associationController.js:54-56 | after a delete, reading the edge by its path is 404 |
| ControllerLemmas.DeleteTwiceSucceeds | controllers/associationController.js:100-102 | a second delete of the same edge succeeds |
| ControllerLemmas.StatusBodyValidates | controllers/associationController.js:62-71 | a status-only body validates to an update of that status alone |
| ControllerLemmas.RestoreByUpdate | controllers/associationController.js:61-86 | delete, then an update setting status 1, makes the edge readable again |
| ControllerLemmas.StoredTypesAdmitted | validators/objects.js:11-16 | in a valid store every stored object type passes the create-time type check unchanged |
| ControllerLemmas.FreshObjectHasNoEdges | migrate.js:11 | a newly created object is the endpoint of no stored edge |
| ControllerLemmas.CreateEdgeSucceeds | controllers/associationController.js:10-40 | an edge between existing objects that is not yet stored is created |
| ControllerLemmas.LinkNewObjects | controllers/associationController.js:17-23 | two objects created one after the other can be linked by any allow-listed type |
| Api.Handle | routes/associations.js:7-12 | each request's store and reply are those of the handler its route names (a listing: the listing handler's outcome); an error changes nothing; reads change nothing; a listing changes only the cache; the AUTO_INCREMENT counter never goes back; validity and first-page freshness are kept |
| Api.Run | app.js:11-12 | any sequence of requests, served through the object and association routers, gets one reply each; the trace of stores runs from the start store to the final one, and each reply and next store are the routed handler's answer in the store before it; the counter never goes back and both invariants are kept |
| Api.RunFromEmpty | migrate.js:9-31 | serving any sequence of requests from the empty database, each step being the routed handler's answer, leaves a valid store whose cached first pages are current |

## Left out

- The cache tier's mechanics: SCAN cursors, batches of 100, DEL of each batch, and the one-hour TTL are not modelled. Invalidation is modelled as removing every matching key at once, and expiry is not modelled.
- JSON serialisation of cached pages: a page read back from the cache has its `created_at` as a string rather than a Date. The model stores and returns the page value itself.
- Failures of the database or the cache, and any service error other than the duplicate key, are not modelled. The controller's rethrow of such errors therefore has nothing to carry.
- Concurrency: interleavings of requests are not modelled. These include a race between the existence check and the insert, and a write that lands between a listing's query and its cache store. They also include the second 404 in the object update handler (objectController.js:35-37), which only a concurrent delete can reach; with one request at a time it is unreachable.
- MySQL timestamps are natural numbers, and the clock is the parameter `now`. `toISOString()` and `String(created_at)` are modelled as decimal text, and the database's reading of a cursor's timestamp text is modelled by `TimestampOf`, which gives 0 for text that is not digits. The MySQL conversion of arbitrary text to TIMESTAMP is not modelled.
- Integer widths: ids are unbounded naturals. BIGINT limits and JavaScript numbers beyond 2^53 are not modelled, and VARCHAR(50) and TINYINT limits are not modelled either. TINYINT status values other than 0 and 1 never arise, since `Schema.Valid` keeps every stored status at 0 or 1.
- `affectedRows` is read as "rows matched". This is what the driver reports by default, so an update that writes the same payload still reports success.
- Decimal.ToNumber: `Number` on strings is modelled only for the empty string and plain decimal digits. Whitespace, signs, a decimal point, exponents, hex, `Infinity` and similar text are read as NaN, so such ids and limits are rejected here where the source might accept them.
- CommonValidators.ParseCursor: for the same reason, a cursor whose id part is not plain decimal digits (for example " 7" or "7.0") is rejected here.
- Glob matching covers `*`, `?` and literal characters. The `[...]` classes and `\` escapes are not modelled: patterns built from allow-listed types and decimal ids never contain them.
- Route plumbing, the Express body parser, the error-handling middleware, the health endpoint, the database and cache clients, and the application start-up are not modelled. `Api.Request` receives requests already split into the parts the handlers read.

=== FILE: api.dfy ===
/**
 * The route table: each request reaches one handler. The invariants of the
 * store (ids never reused, edges only between issued ids) and of the cache
 * (every cached first page is current) hold across any sequence of
 * requests.
 */
module Api {
  import opened Wrappers
  import opened Js
  import opened Schema
  import opened Http
  import opened CacheFreshness
  import opened AssociationController
  import opened ObjectController
  import opened AssociationService

  /** One request, already split into the parts its handler reads. */
  datatype Request =
    | ObjectPost(body: Json)                                             // POST /objects
    | ObjectGet(id: string)                                              // GET /objects/:id
    | ObjectPut(id: string, body: Json)                                  // PUT /objects/:id
    | ObjectDelete(id: string)                                           // DELETE /objects/:id
    | AssociationPost(body: Json)                                        // POST /associations
    | AssociationList(sourceId: Json, assocType: Json, limit: Json, cursor: Json)  // GET /associations
    | AssociationCount(sourceId: Json, assocType: Json)                  // GET /associations/count
    | AssociationGet(sourceText: string, typeText: string, destinationText: string)  // GET /associations/:sourceId/:type/:destinationId
    | AssociationPut(body: Json)                                         // PUT /associations
    | AssociationDelete(body: Json)                                      // DELETE /associations

  /** Reads never change the store. */
  predicate IsRead(req: Request) {
    req.ObjectGet? || req.AssociationCount? || req.AssociationGet?
  }

  /**
   * What every handler keeps: an error changes nothing, the AUTO_INCREMENT
   * counter never goes back, and both invariants survive.
   */
  ghost predicate Keeps(st: Store, st': Store, r: Response) {
    && (r.Err? ==> st' == st)
    && st'.nextId >= st.nextId
    && (Valid(st) ==> Valid(st'))
    && (FreshFirstPages(st) ==> FreshFirstPages(st'))
  }

  /**
   * The store and reply of the handler the request's route names. Reads
   * leave the store as it is; a listing is described by its outcome, since
   * its handler is a method.
   */
  ghost predicate Answers(st: Store, req: Request, now: nat, st': Store, r: Response) {
    match req
    case ObjectPost(body) => (st', r) == CreateObjectHandler(st, body, now)
    case ObjectGet(id) => st' == st && r == GetObjectHandler(st.objects, id)
    case ObjectPut(id, body) => (st', r) == UpdateObjectHandler(st, id, body, now)
    case ObjectDelete(id) => (st', r) == DeleteObjectHandler(st, id)
    case AssociationPost(body) => (st', r) == CreateAssociationHandler(st, body, now)
    case AssociationList(sourceId, assocType, limit, cursor) => ListOutcome(st, st', r, sourceId, assocType, limit, cursor)
    case AssociationCount(sourceId, assocType) => st' == st && r == CountAssociationsHandler(st.assocs, sourceId, assocType)
    case AssociationGet(sourceText, typeText, destinationText) =>
      st' == st && r == GetAssociationHandler(st.assocs, sourceText, typeText, destinationText)
    case AssociationPut(body) => (st', r) == UpdateAssociationHandler(st, body)
    case AssociationDelete(body) => (st', r) == DeleteAssociationHandler(st, body)
  }

  /** The write handlers, each answering as its handler does, served with the proof that it keeps both invariants. */
  method ServeCreateObject(st: Store, body: Json, now: nat) returns (st': Store, r: Response)
    ensures Keeps(st, st', r)
    ensures (st', r) == CreateObjectHandler(st, body, now)
  {
    st', r := CreateObjectHandler(st, body, now).0, CreateObjectHandler(st, body, now).1;
  }

  method ServeUpdateObject(st: Store, id: string, body: Json, now: nat) returns (st': Store, r: Response)
    ensures Keeps(st, st', r)
    ensures (st', r) == UpdateObjectHandler(st, id, body, now)
  {
    st', r := UpdateObjectHandler(st, id, body, now).0, UpdateObjectHandler(st, id, body, now).1;
  }

  method ServeDeleteObject(st: Store, id: string) returns (st': Store, r: Response)
    ensures Keeps(st, st', r)
    ensures (st', r) == DeleteObjectHandler(st, id)
  {
    st', r := DeleteObjectHandler(st, id).0, DeleteObjectHandler(st, id).1;
  }

  method ServeCreateAssociation(st: Store, body: Json, now: nat) returns (st': Store, r: Response)
    ensures Keeps(st, st', r)
    ensures (st', r) == CreateAssociationHandler(st, body, now)
  {
    st', r := CreateAssociationHandler(st, body, now).0, CreateAssociationHandler(st, body, now).1;
    if FreshFirstPages(st) && r.Ok? {
      WriteKeepsFresh(st, st', KeyOf(ValidateCreate(body).value.edge));
    }
  }

  method ServeUpdateAssociation(st: Store, body: Json) returns (st': Store, r: Response)
    ensures Keeps(st, st', r)
    ensures (st', r) == UpdateAssociationHandler(st, body)
  {
    st', r := UpdateAssociationHandler(st, body).0, UpdateAssociationHandler(st, body).1;
    if FreshFirstPages(st) && r.Ok? {
      WriteKeepsFresh(st, st', KeyOf(ValidateUpdate(body).value.edge));
    }
  }

  method ServeDeleteAssociation(st: Store, body: Json) returns (st': Store, r: Response)
    ensures Keeps(st, st', r)
    ensures (st', r) == DeleteAssociationHandler(st, body)
  {
    st', r := DeleteAssociationHandler(st, body).0, DeleteAssociationHandler(st, body).1;
    if FreshFirstPages(st) && r.Ok? {
      var edge := ValidateEdge(Field(body, "sourceId"), Field(body, "destinationId"), Field(body, "associationType"));
      WriteKeepsFresh(st, st', KeyOf(edge.value));
    }
  }

  method ServeList(st: Store, sourceId: Json, assocType: Json, limit: Json, cursor: Json) returns (st': Store, r: Response)
    ensures Keeps(st, st', r)
    ensures ListOutcome(st, st', r, sourceId, assocType, limit, cursor)
  {
    st', r := ListAssociationsHandler(st, sourceId, assocType, limit, cursor);
  }

  /**
   * Serves one request at time `now` by the handler its route names. An
   * error leaves the store unchanged, reads leave it unchanged, a listing
   * changes only the cache, and both invariants are kept.
   */
  method Handle(st: Store, req: Request, now: nat) returns (st': Store, r: Response)
    ensures Keeps(st, st', r)
    ensures IsRead(req) ==> st' == st
    ensures req.AssociationList? ==> st'.objects == st.objects && st'.nextId == st.nextId && st'.assocs == st.assocs
    ensures Answers(st, req, now, st', r)
  {
    match req {
      case ObjectPost(body) =>
        st', r := ServeCreateObject(st, body, now);
      case ObjectGet(id) =>
        st', r := st, GetObjectHandler(st.objects, id);
      case ObjectPut(id, body) =>
        st', r := ServeUpdateObject(st, id, body, now);
      case ObjectDelete(id) =>
        st', r := ServeDeleteObject(st, id);
      case AssociationPost(body) =>
        st', r := ServeCreateAssociation(st, body, now);
      case AssociationList(sourceId, assocType, limit, cursor) =>
        st', r := ServeList(st, sourceId, assocType, limit, cursor);
      case AssociationCount(sourceId, assocType) =>
        st', r := st, CountAssociationsHandler(st.assocs, sourceId, assocType);
      case AssociationGet(sourceId, assocType, destinationId) =>
        st', r := st, GetAssociationHandler(st.assocs, sourceId, assocType, destinationId);
      case AssociationPut(body) =>
        st', r := ServeUpdateAssociation(st, body);
      case AssociationDelete(body) =>
        st', r := ServeDeleteAssociation(st, body);
    }
  }

  /**
   * Serves requests one after another, each with its own clock reading,
   * and returns one response per request. `trace` holds the store before
   * each request and after the last: every response and every next store
   * are the ones the request's handler gives in the store before it. The
   * counter never goes back, so with `ObjectService.IdsNeverReused` no later
   * create reuses an id.
   */
  method Run(st: Store, reqs: seq<(Request, nat)>) returns (st': Store, responses: seq<Response>, ghost trace: seq<Store>)
    ensures |responses| == |reqs| && |trace| == |reqs| + 1
    ensures trace[0] == st && trace[|reqs|] == st'
    ensures forall i :: 0 <= i < |reqs| ==> Answers(trace[i], reqs[i].0, reqs[i].1, trace[i + 1], responses[i])
    ensures st'.nextId >= st.nextId
    ensures Valid(st) ==> Valid(st')
    ensures FreshFirstPages(st) ==> FreshFirstPages(st')
  {
    st' := st;
    responses := [];
    trace := [st];
    var i := 0;
    while i < |reqs|
      invariant 0 <= i <= |reqs|
      invariant |responses| == i && |trace| == i + 1
      invariant trace[0] == st && trace[i] == st'
      invariant forall j :: 0 <= j < i ==> Answers(trace[j], reqs[j].0, reqs[j].1, trace[j + 1], responses[j])
      invariant st'.nextId >= st.nextId
      invariant Valid(st) ==> Valid(st')
      invariant FreshFirstPages(st) ==> FreshFirstPages(st')
    {
      var r;
      st', r := Handle(st', reqs[i].0, reqs[i].1);
      responses := responses + [r];
      trace := trace + [st'];
      i := i + 1;
    }
  }

  /**
   * From the empty database, serving any sequence of requests leaves a
   * valid store with fresh first pages; the trace starts at the empty
   * database and each step is the handler's answer.
   */
  method RunFromEmpty(reqs: seq<(Request, nat)>) returns (st': Store, responses: seq<Response>, ghost trace: seq<Store>)
    ensures |responses| == |reqs| && |trace| == |reqs| + 1
    ensures trace[0] == Empty && trace[|reqs|] == st'
    ensures forall i :: 0 <= i < |reqs| ==> Answers(trace[i], reqs[i].0, reqs[i].1, trace[i + 1], responses[i])
    ensures Valid(st') && FreshFirstPages(st')
  {
    EmptyIsFresh();
    st', responses, trace := Run(Empty, reqs);
  }
}

=== FILE: association_controller.dfy ===
/**
 * The edge handlers: each parses and validates its request in a fixed order,
 * maps the service's outcome to a reply or an HTTP error, and never changes
 * the store when it answers with an error.
 */
module AssociationController {
  import opened Wrappers
  import opened Js
  import opened Decimal
  import opened Schema
  import opened Http
  import opened CommonValidators
  import opened AssociationValidators
  import opened CacheKeys
  import opened Pagination
  import opened AssociationService
  import opened CacheFreshness
  import Constants

  /** `Number(v)` of an optional field: an undefined field stays absent. */
  function OptionalNumber(v: Json): (r: Option<JsNumber>)
    ensures r.None? <==> v.JUndefined?
    ensures r.Some? ==> r.value == ToNumber(v)
  {
    if v.JUndefined? then None else Some(ToNumber(v))
  }

  /** A parsed (source, destination, type) triple. */
  datatype EdgeRef = EdgeRef(sourceId: nat, destinationId: nat, assocType: string)

  function KeyOf(e: EdgeRef): AssocKey {
    AssocKey(e.sourceId, e.assocType, e.destinationId)
  }

  /**
   * The checks every single-edge handler starts with, in this order:
   * `sourceId`, then `destinationId`, then the association type.
   */
  function ValidateEdge(sourceId: Json, destinationId: Json, assocType: Json): (r: Result<EdgeRef, HttpError>)
    ensures r.Ok? <==>
      && IsPositiveId(ToNumber(sourceId)) && IsPositiveId(ToNumber(destinationId))
      && assocType.JStr? && assocType.s in Constants.AssociationTypes
    ensures r.Ok? ==>
      && r.value.sourceId > 0 && r.value.sourceId as real == ToNumber(sourceId).value
      && r.value.destinationId > 0 && r.value.destinationId as real == ToNumber(destinationId).value
      && r.value.assocType == assocType.s
    ensures !IsPositiveId(ToNumber(sourceId)) ==> r == Err(BadRequest("Invalid sourceId"))
    ensures IsPositiveId(ToNumber(sourceId)) && !IsPositiveId(ToNumber(destinationId)) ==>
      r == Err(BadRequest("Invalid destinationId"))
    ensures IsPositiveId(ToNumber(sourceId)) && IsPositiveId(ToNumber(destinationId)) && r.Err? ==>
      r == Err(BadRequest("Invalid associationType"))
  {
    assert "Invalid " + "sourceId" == "Invalid sourceId";
    assert "Invalid " + "destinationId" == "Invalid destinationId";
    var s :- ParseId(ToNumber(sourceId), "sourceId");
    var d :- ParseId(ToNumber(destinationId), "destinationId");
    var t :- ValidateAssociationType(assocType);
    Ok(EdgeRef(s, d, t))
  }

  // ----- POST /associations -----

  /** The validated create request: the edge and its raw payload. */
  datatype CreateRequest = CreateRequest(edge: EdgeRef, data: Json)

  /** Ids and type first, then the payload against the type's rule. */
  function ValidateCreate(body: Json): (r: Result<CreateRequest, HttpError>)
    ensures var e := ValidateEdge(Field(body, "sourceId"), Field(body, "destinationId"), Field(body, "associationType"));
      && (e.Err? ==> r == Err(e.error))
      && (e.Ok? ==> var v := ValidateAssociationData(e.value.assocType, Field(body, "data"));
          && (v.Err? ==> r == Err(v.error))
          && (v.Ok? ==> r == Ok(CreateRequest(e.value, Field(body, "data")))))
  {
    var edge :- ValidateEdge(Field(body, "sourceId"), Field(body, "destinationId"), Field(body, "associationType"));
    var _ :- ValidateAssociationData(edge.assocType, Field(body, "data"));
    Ok(CreateRequest(edge, Field(body, "data")))
  }

  /**
   * Creates an edge: a request that fails validation is refused with the
   * first failing check's error; a missing endpoint object is a 400 naming
   * it (the source is checked first); an existing triple, even a
   * soft-deleted one, is a 409; otherwise the edge is stored active.
   */
  function CreateAssociationHandler(st: Store, body: Json, now: nat): (res: (Store, Response))
    ensures res.0.objects == st.objects && res.0.nextId == st.nextId
    ensures res.1.Err? ==> res.0 == st
    ensures Valid(st) ==> Valid(res.0)
    ensures var v := ValidateCreate(body);
      && (v.Err? ==> res.1 == Err(v.error))
      && (v.Ok? ==> var k := KeyOf(v.value.edge);
          && (k.sourceId !in st.objects ==> res.1 == Err(BadRequest("Invalid sourceId")))
          && (k.sourceId in st.objects && k.destinationId !in st.objects ==>
                res.1 == Err(BadRequest("Invalid destinationId")))
          && (k.sourceId in st.objects && k.destinationId in st.objects && k in st.assocs ==>
                res.1 == Err(Conflict("Association already exists")))
          && (k.sourceId in st.objects && k.destinationId in st.objects && k !in st.assocs ==>
                && res.1 == Ok(SuccessReply)
                && k in res.0.assocs
                && res.0.assocs[k] == AssocRow(OrEmptyObject(v.value.data), now, Active)
                && SameExcept(st.assocs, res.0.assocs, k)
                && res.0.cache == Invalidate(st.cache, k.sourceId, k.assocType)))
  {
    assert "Invalid " + "sourceId" == "Invalid sourceId";
    assert "Invalid " + "destinationId" == "Invalid destinationId";
    match ValidateCreate(body)
    case Err(e) => (st, Err(e))
    case Ok(req) =>
      var edge := req.edge;
      match EnsureObjectsExist(st.objects, edge.sourceId, edge.destinationId)
      case Missing(field) => (st, Err(BadRequest("Invalid " + field)))
      case BothExist =>
        var (st', outcome) := CreateAssociation(st, edge.sourceId, edge.destinationId, edge.assocType, req.data, now);
        if outcome.Err? then (st, Err(Conflict("Association already exists")))
        else (st', Ok(SuccessReply))
  }

  // ----- GET /associations/:sourceId/:type/:destinationId -----

  /** Reads one active edge; a soft-deleted or absent edge is a 404. */
  function GetAssociationHandler(assocs: map<AssocKey, AssocRow>, sourceId: string, assocType: string,
                                 destinationId: string): (r: Response)
    ensures var e := ValidateEdge(JStr(sourceId), JStr(destinationId), JStr(assocType));
      && (e.Err? ==> r == Err(e.error))
      && (e.Ok? ==> var k := KeyOf(e.value);
          && (r.Ok? <==> k in assocs && assocs[k].status == Active)
          && (r.Ok? ==> r.value == AssociationReply(AssocRecord(k, assocs[k])))
          && (r.Err? ==> r.error == NotFound("Association not found")))
  {
    match ValidateEdge(JStr(sourceId), JStr(destinationId), JStr(assocType))
    case Err(e) => Err(e)
    case Ok(edge) =>
      match GetAssociation(assocs, edge.sourceId, edge.destinationId, edge.assocType)
      case None => Err(NotFound("Association not found"))
      case Some(rec) => Ok(AssociationReply(rec))
  }

  // ----- PUT /associations -----

  /** The validated update request: the edge and the fields to set. */
  datatype UpdateRequest = UpdateRequest(edge: EdgeRef, data: Option<Json>, status: Option<int>)

  /**
   * Ids, type, status, then payload; a request that would set nothing is
   * refused, so a validated request always names a field to set.
   */
  function ValidateUpdate(body: Json): (r: Result<UpdateRequest, HttpError>)
    ensures r.Ok? ==> r.value.data.Some? || r.value.status.Some?
    ensures r.Ok? ==> (r.value.data.Some? <==> !Field(body, "data").JUndefined?)
    ensures r.Ok? && r.value.data.Some? ==> r.value.data.value == Field(body, "data")
    ensures r.Ok? ==> ParseAssociationStatus(OptionalNumber(Field(body, "status"))) == Ok(r.value.status)
    ensures var e := ValidateEdge(Field(body, "sourceId"), Field(body, "destinationId"), Field(body, "associationType"));
      && (e.Err? ==> r == Err(e.error))
      && (e.Ok? ==> var s := ParseAssociationStatus(OptionalNumber(Field(body, "status")));
          && (s.Err? ==> r == Err(BadRequest("Invalid status")))
          && (s.Ok? ==> var v := ValidateAssociationData(e.value.assocType, Field(body, "data"));
              && (v.Err? ==> r == Err(v.error))
              && (v.Ok? && s.value.None? && Field(body, "data").JUndefined? ==>
                    r == Err(BadRequest("Nothing to update")))
              && (v.Ok? && (s.value.Some? || !Field(body, "data").JUndefined?) ==>
                    r.Ok? && r.value.edge == e.value)))
  {
    var edge :- ValidateEdge(Field(body, "sourceId"), Field(body, "destinationId"), Field(body, "associationType"));
    var status :- ParseAssociationStatus(OptionalNumber(Field(body, "status")));
    var data := Field(body, "data");
    var _ :- ValidateAssociationData(edge.assocType, data);
    if data.JUndefined? && status.None? then Err(BadRequest("Nothing to update"))
    else Ok(UpdateRequest(edge, if data.JUndefined? then None else Some(data), status))
  }

  /**
   * Updates an edge whatever its current status (so it can restore a
   * soft-deleted edge); an absent triple is a 404.
   */
  function UpdateAssociationHandler(st: Store, body: Json): (res: (Store, Response))
    ensures res.0.objects == st.objects && res.0.nextId == st.nextId
    ensures res.1.Err? ==> res.0 == st
    ensures Valid(st) ==> Valid(res.0)
    ensures var v := ValidateUpdate(body);
      && (v.Err? ==> res.1 == Err(v.error))
      && (v.Ok? ==> var k := KeyOf(v.value.edge);
          && (k !in st.assocs ==> res.1 == Err(NotFound("Association not found")))
          && (k in st.assocs ==>
                && res.1 == Ok(SuccessReply)
                && res.0 == UpdateAssociation(st, k.sourceId, k.destinationId, k.assocType,
                                              v.value.data, v.value.status).0))
  {
    match ValidateUpdate(body)
    case Err(e) => (st, Err(e))
    case Ok(req) =>
      var edge := req.edge;
      var (st', found) := UpdateAssociation(st, edge.sourceId, edge.destinationId, edge.assocType, req.data, req.status);
      if !found then (st, Err(NotFound("Association not found")))
      else (st', Ok(SuccessReply))
  }

  // ----- DELETE /associations -----

  /** Soft-deletes an edge; an absent triple is a 404, an already deleted one succeeds again. */
  function DeleteAssociationHandler(st: Store, body: Json): (res: (Store, Response))
    ensures res.0.objects == st.objects && res.0.nextId == st.nextId
    ensures res.1.Err? ==> res.0 == st
    ensures Valid(st) ==> Valid(res.0)
    ensures var e := ValidateEdge(Field(body, "sourceId"), Field(body, "destinationId"), Field(body, "associationType"));
      && (e.Err? ==> res.1 == Err(e.error))
      && (e.Ok? ==> var k := KeyOf(e.value);
          && (k !in st.assocs ==> res.1 == Err(NotFound("Association not found")))
          && (k in st.assocs ==>
                && res.1 == Ok(SuccessReply)
                && res.0 == SoftDeleteAssociation(st, k.sourceId, k.destinationId, k.assocType).0))
  {
    match ValidateEdge(Field(body, "sourceId"), Field(body, "destinationId"), Field(body, "associationType"))
    case Err(e) => (st, Err(e))
    case Ok(edge) =>
      var (st', found) := SoftDeleteAssociation(st, edge.sourceId, edge.destinationId, edge.assocType);
      if !found then (st, Err(NotFound("Association not found")))
      else (st', Ok(SuccessReply))
  }

  // ----- GET /associations (listing) and GET /associations/count -----

  /** The validated listing query. */
  datatype ListRequest = ListRequest(sourceId: nat, assocType: string, limit: nat, cursor: Option<Cursor>)

  /** Source id, type, page size, cursor, in this order; the page size ends up within 1..100. */
  function ValidateList(sourceId: Json, assocType: Json, limit: Json, cursor: Json): (r: Result<ListRequest, HttpError>)
    ensures r.Ok? <==>
      && IsPositiveId(ToNumber(sourceId))
      && assocType.JStr? && assocType.s in Constants.AssociationTypes
      && ParseLimit(OptionalNumber(limit)).Ok?
      && ParseCursor(cursor).Ok?
    ensures r.Ok? ==>
      && r.value.sourceId > 0 && r.value.sourceId as real == ToNumber(sourceId).value
      && r.value.assocType == assocType.s
      && 1 <= r.value.limit <= Constants.MaxListLimit
      && r.value.limit == ParseLimit(OptionalNumber(limit)).value
      && r.value.cursor == ParseCursor(cursor).value
    ensures !IsPositiveId(ToNumber(sourceId)) ==> r == Err(BadRequest("Invalid sourceId"))
    ensures IsPositiveId(ToNumber(sourceId)) && !(assocType.JStr? && assocType.s in Constants.AssociationTypes) ==>
      r == Err(BadRequest("Invalid associationType"))
    ensures IsPositiveId(ToNumber(sourceId)) && assocType.JStr? && assocType.s in Constants.AssociationTypes ==>
      && (ParseLimit(OptionalNumber(limit)).Err? ==> r == Err(ParseLimit(OptionalNumber(limit)).error))
      && (ParseLimit(OptionalNumber(limit)).Ok? && ParseCursor(cursor).Err? ==> r == Err(ParseCursor(cursor).error))
  {
    assert "Invalid " + "sourceId" == "Invalid sourceId";
    var s :- ParseId(ToNumber(sourceId), "sourceId");
    var t :- ValidateAssociationType(assocType);
    var l :- ParseLimit(OptionalNumber(limit));
    var c :- ParseCursor(cursor);
    Ok(ListRequest(s, t, l, c))
  }

  /**
   * What one listing request does to the store and answers: only the cache
   * may change. A rejected request changes nothing and answers the
   * validation error. An accepted one answers a page: a cached page is
   * returned as stored and the cache is left alone; otherwise the page is
   * the first `limit` (at most 100) active rows below the cursor in
   * descending order, with a continuation cursor when the page is full, and
   * it is cached under its key.
   */
  ghost predicate ListOutcome(st: Store, st': Store, r: Response, sourceId: Json, assocType: Json, limit: Json, cursor: Json) {
    var q := ValidateList(sourceId, assocType, limit, cursor);
    && st'.objects == st.objects && st'.nextId == st.nextId && st'.assocs == st.assocs
    && (q.Err? ==> st' == st && r == Err(q.error))
    && (q.Ok? ==>
      && r.Ok? && r.value.PageReply?
      && var key := PageKey(q.value.sourceId, q.value.assocType, q.value.cursor, q.value.limit);
         var page := r.value.page;
         && st'.cache == (if key in st.cache then st.cache else st.cache[key := page])
         && (key in st.cache ==> page == st.cache[key])
         && (key !in st.cache ==>
           && IsPage(page.items, Candidates(st.assocs, q.value.sourceId, q.value.assocType, CursorPosition(q.value.cursor)), q.value.limit)
           && |page.items| <= Constants.MaxListLimit
           && page.nextCursor == NextCursor(page.items, q.value.limit)))
  }

  /**
   * Lists one page, as ListOutcome describes. In a store whose cached first
   * pages are fresh, they stay fresh, and a first page answered is exactly
   * the current listing.
   */
  method ListAssociationsHandler(st: Store, sourceId: Json, assocType: Json, limit: Json, cursor: Json)
    returns (st': Store, r: Response)
    ensures ListOutcome(st, st', r, sourceId, assocType, limit, cursor)
    ensures FreshFirstPages(st) ==> FreshFirstPages(st')
    ensures var q := ValidateList(sourceId, assocType, limit, cursor);
      FreshFirstPages(st) && q.Ok? && q.value.cursor.None? && r.Ok? && r.value.PageReply? ==>
        && IsPage(r.value.page.items, Candidates(st.assocs, q.value.sourceId, q.value.assocType, None), q.value.limit)
        && r.value.page.nextCursor == NextCursor(r.value.page.items, q.value.limit)
  {
    var q := ValidateList(sourceId, assocType, limit, cursor);
    if q.Err? {
      return st, Err(q.error);
    }
    var req := q.value;
    var page;
    st', page := ListAssociations(st, req.sourceId, req.assocType, req.limit, req.cursor);
    if FreshFirstPages(st) && PageKey(req.sourceId, req.assocType, req.cursor, req.limit) !in st.cache {
      StoreKeepsFresh(st, req.sourceId, req.assocType, req.cursor, req.limit, page);
    }
    r := Ok(PageReply(page));
  }

  /** Counts the active edges of (source, type). */
  function CountAssociationsHandler(assocs: map<AssocKey, AssocRow>, sourceId: Json, assocType: Json): (r: Response)
    ensures r.Ok? <==> IsPositiveId(ToNumber(sourceId)) && assocType.JStr? && assocType.s in Constants.AssociationTypes
    ensures r.Ok? ==> r.value == CountReply(|ActiveKeys(assocs, ToNumber(sourceId).value.Floor, assocType.s)|)
    ensures !IsPositiveId(ToNumber(sourceId)) ==> r == Err(BadRequest("Invalid sourceId"))
    ensures IsPositiveId(ToNumber(sourceId)) && r.Err? ==> r == Err(BadRequest("Invalid associationType"))
  {
    assert "Invalid " + "sourceId" == "Invalid sourceId";
    match ParseId(ToNumber(sourceId), "sourceId")
    case Err(e) => Err(e)
    case Ok(s) =>
      match ValidateAssociationType(assocType)
      case Err(e) => Err(e)
      case Ok(t) => Ok(CountReply(CountAssociations(assocs, s, t)))
  }
}

=== FILE: association_lemmas.dfy ===
/** Properties relating several operations of the association store. */
module AssociationLemmas {
  import opened Wrappers
  import opened Js
  import opened Schema
  import opened CommonValidators
  import opened CacheKeys
  import opened Pagination
  import opened AssociationService

  /** Adding an active edge of (s, t) raises its count by one; other pairs keep theirs. */
  lemma CreateCounts(st: Store, s: nat, d: nat, t: string, data: Json, now: nat, s': nat, t': string)
    requires CreateAssociation(st, s, d, t, data, now).1.Ok?
    ensures var st' := CreateAssociation(st, s, d, t, data, now).0;
      CountAssociations(st'.assocs, s', t') ==
        CountAssociations(st.assocs, s', t') + (if s' == s && t' == t then 1 else 0)
  {
    var st' := CreateAssociation(st, s, d, t, data, now).0;
    var key := AssocKey(s, t, d);
    if s' == s && t' == t {
      assert ActiveKeys(st'.assocs, s', t') == ActiveKeys(st.assocs, s', t') + {key};
    } else {
      assert ActiveKeys(st'.assocs, s', t') == ActiveKeys(st.assocs, s', t');
    }
  }

  /** A created edge is immediately readable, with status 1, `data || {}` and the creation time. */
  lemma CreateThenGet(st: Store, s: nat, d: nat, t: string, data: Json, now: nat)
    requires CreateAssociation(st, s, d, t, data, now).1.Ok?
    ensures GetAssociation(CreateAssociation(st, s, d, t, data, now).0.assocs, s, d, t)
         == Some(AssocRecord(AssocKey(s, t, d), AssocRow(OrEmptyObject(data), now, Active)))
  {
  }

  /**
   * Re-creating a soft-deleted triple is a conflict, not a reactivation: the
   * row stays deleted and nothing else changes.
   */
  lemma RecreateAfterDeleteConflicts(st: Store, s: nat, d: nat, t: string, data: Json, now: nat)
    requires SoftDeleteAssociation(st, s, d, t).1
    ensures var st' := SoftDeleteAssociation(st, s, d, t).0;
      CreateAssociation(st', s, d, t, data, now) == (st', Err(DuplicateEntry))
  {
  }

  /** Creating another destination under the same (source, type) after a conflict succeeds. */
  lemma OtherDestinationStillCreates(st: Store, s: nat, d: nat, d': nat, t: string, data: Json, now: nat)
    requires CreateAssociation(st, s, d, t, data, now).1.Ok?
    requires d' != d && AssocKey(s, t, d') !in st.assocs
    ensures var st1 := CreateAssociation(st, s, d, t, data, now).0;
      && CreateAssociation(st1, s, d, t, data, now).1.Err?
      && CreateAssociation(st1, s, d', t, data, now).1.Ok?
  {
  }

  /**
   * After a soft delete the edge is gone from reads, from the count and from
   * every listing; an active edge lowers the count by one.
   */
  lemma SoftDeleteHides(st: Store, s: nat, d: nat, t: string, pos: Option<Position>)
    requires SoftDeleteAssociation(st, s, d, t).1
    ensures var st' := SoftDeleteAssociation(st, s, d, t).0;
      && GetAssociation(st'.assocs, s, d, t).None?
      && (forall x :: x in Candidates(st'.assocs, s, t, pos) ==> x.destinationId != d)
      && CountAssociations(st'.assocs, s, t) ==
           CountAssociations(st.assocs, s, t) - (if st.assocs[AssocKey(s, t, d)].status == Active then 1 else 0)
  {
    var st' := SoftDeleteAssociation(st, s, d, t).0;
    var key := AssocKey(s, t, d);
    if st.assocs[key].status == Active {
      assert ActiveKeys(st.assocs, s, t) == ActiveKeys(st'.assocs, s, t) + {key};
    } else {
      assert ActiveKeys(st.assocs, s, t) == ActiveKeys(st'.assocs, s, t);
    }
  }

  /** Deleting twice succeeds twice and the second time changes no row. */
  lemma SoftDeleteIdempotent(st: Store, s: nat, d: nat, t: string)
    requires SoftDeleteAssociation(st, s, d, t).1
    ensures var st1 := SoftDeleteAssociation(st, s, d, t).0;
      var st2 := SoftDeleteAssociation(st1, s, d, t).0;
      SoftDeleteAssociation(st1, s, d, t).1 && st2.assocs == st1.assocs
  {
    var st1 := SoftDeleteAssociation(st, s, d, t).0;
    var key := AssocKey(s, t, d);
    assert st1.assocs[key := st1.assocs[key].(status := Deleted)] == st1.assocs;
  }

  /** An update that sets status 1 brings a soft-deleted edge back to reads. */
  lemma UpdateRestoresDeleted(st: Store, s: nat, d: nat, t: string)
    requires SoftDeleteAssociation(st, s, d, t).1
    ensures var st1 := SoftDeleteAssociation(st, s, d, t).0;
      var st2 := UpdateAssociation(st1, s, d, t, None, Some(Active));
      st2.1 && GetAssociation(st2.0.assocs, s, d, t) == Some(AssocRecord(AssocKey(s, t, d), st.assocs[AssocKey(s, t, d)].(status := Active)))
  {
  }

  /** A soft-deleted triple and an absent triple read the same. */
  lemma DeletedReadsAsAbsent(st: Store, s: nat, d: nat, t: string, absent: map<AssocKey, AssocRow>)
    requires SoftDeleteAssociation(st, s, d, t).1
    requires AssocKey(s, t, d) !in absent
    ensures GetAssociation(SoftDeleteAssociation(st, s, d, t).0.assocs, s, d, t) == GetAssociation(absent, s, d, t)
  {
  }

  /** No page of (s, t) is left in `after`, and the page of (s', t') under the same cursor and limit is as it was. */
  predicate ClearsOnlyPair(before: map<string, Page>, after: map<string, Page>, s: nat, t: string, s': nat, t': string,
                           cursor: Option<Cursor>, limit: nat) {
    && PageKey(s, t, cursor, limit) !in after
    && ((s', t') != (s, t) ==>
      var key := PageKey(s', t', cursor, limit);
      (key in after <==> key in before) && (key in before ==> after[key] == before[key]))
  }

  /**
   * Each successful write to an edge of (s, t) (create, update, soft
   * delete) leaves no page of (s, t) cached, whatever its cursor and limit,
   * and leaves the pages of every other pair as they were.
   */
  lemma WriteInvalidatesPair(st: Store, s: nat, d: nat, t: string, data: Json, now: nat,
                             newData: Option<Json>, status: Option<int>,
                             s': nat, t': string, cursor: Option<Cursor>, limit: nat)
    requires Plain(t) && Plain(t')
    ensures var c := CreateAssociation(st, s, d, t, data, now);
      c.1.Ok? ==> ClearsOnlyPair(st.cache, c.0.cache, s, t, s', t', cursor, limit)
    ensures (newData.Some? || status.Some?) && UpdateAssociation(st, s, d, t, newData, status).1 ==>
      ClearsOnlyPair(st.cache, UpdateAssociation(st, s, d, t, newData, status).0.cache, s, t, s', t', cursor, limit)
    ensures var x := SoftDeleteAssociation(st, s, d, t);
      x.1 ==> ClearsOnlyPair(st.cache, x.0.cache, s, t, s', t', cursor, limit)
  {
    InvalidateRemovesPair(st.cache, s, t, cursor, limit);
    if (s', t') != (s, t) {
      InvalidateKeepsOtherPairs(st.cache, s, t, s', t', cursor, limit);
    }
  }

  /** With no active edge, every listing page is empty and carries no cursor. */
  lemma EmptyListing(rows: seq<Item>, limit: nat)
    requires limit >= 1 && IsPage(rows, {}, limit)
    ensures rows == [] && NextCursor(rows, limit).None?
  {
  }
}

=== FILE: association_service.dfy ===
/**
 * The association store: cursor encoding, the existence check, the edge
 * state machine (create, read, update, soft-delete, count) and the
 * cache-first keyset listing.
 */
module AssociationService {
  import opened Wrappers
  import opened Js
  import opened Decimal
  import opened Schema
  import opened CommonValidators
  import opened CacheKeys
  import opened Pagination

  // ----- Cursor encoding -----

  /** What the cursor encoder reads of a row: its creation time (as text) and destination id, each possibly missing. */
  datatype CursorFields = CursorFields(createdAt: Option<string>, destinationId: Option<int>)

  /**
   * `buildCursor`: "<createdAt>|<destinationId>", or null when there is no
   * row or either field is missing or falsy.
   */
  function BuildCursor(row: Option<CursorFields>): (r: Option<string>)
    ensures r.Some? ==> row.Some? && row.value.createdAt.Some? && row.value.destinationId.Some?
  {
    if row.None? then None
    else if row.value.createdAt.None? || row.value.createdAt.value == "" then None
    else if row.value.destinationId.None? || row.value.destinationId.value == 0 then None
    else Some(row.value.createdAt.value + "|" + IntToString(row.value.destinationId.value))
  }

  /** A row lacking a creation time or a destination id (or with a falsy one) yields no cursor. */
  lemma BuildCursorNull(row: Option<CursorFields>)
    ensures BuildCursor(row).None? <==>
      || row.None?
      || row.value.createdAt.None? || row.value.createdAt == Some("")
      || row.value.destinationId.None? || row.value.destinationId == Some(0)
  {
  }

  /** Decoding an encoded cursor gives back the timestamp text and the destination id. */
  lemma CursorRoundTrip(ts: string, d: int)
    requires ts != "" && '|' !in ts && d > 0
    ensures BuildCursor(Some(CursorFields(Some(ts), Some(d)))).Some?
    ensures ParseCursor(JStr(BuildCursor(Some(CursorFields(Some(ts), Some(d)))).value))
         == Ok(Some(Cursor(ts, d)))
  {
    ParseCursorOfPair(ts, d);
  }

  /** The text a stored creation time is rendered as in a cursor. */
  function TimestampText(t: nat): string {
    NatToString(t)
  }

  /** The creation time the store reads back from a cursor's text (0 when it cannot). */
  function TimestampOf(text: string): nat {
    match ParseNat(text)
    case Some(n) => n
    case None => 0
  }

  function FieldsOf(x: Item): CursorFields {
    CursorFields(Some(TimestampText(x.createdAt)), Some(x.destinationId))
  }

  /** The keyset bound a decoded cursor stands for. */
  function CursorPosition(cursor: Option<Cursor>): Option<Position> {
    match cursor
    case None => None
    case Some(c) => Some(Position(TimestampOf(c.createdAt), c.destinationId))
  }

  /** The cursor built from a listed row decodes to that row's own position. */
  lemma ItemCursorRoundTrip(x: Item)
    requires x.destinationId > 0
    ensures BuildCursor(Some(FieldsOf(x))).Some?
    ensures var r := ParseCursor(JStr(BuildCursor(Some(FieldsOf(x))).value));
      r.Ok? && r.value.Some? && CursorPosition(r.value) == Some(PositionOf(x))
  {
    var ts := TimestampText(x.createdAt);
    NonDigitAbsent(ts, '|');
    CursorRoundTrip(ts, x.destinationId);
    ParseNatToString(x.createdAt);
  }

  // ----- Existence check -----

  datatype Existence = BothExist | Missing(field: string)

  /** Both endpoints must exist; the source is checked first and named first. */
  function EnsureObjectsExist(objects: map<nat, ObjectRow>, sourceId: nat, destinationId: nat): (r: Existence)
    ensures r == BothExist <==> sourceId in objects && destinationId in objects
    ensures sourceId !in objects ==> r == Missing("sourceId")
    ensures sourceId in objects && destinationId !in objects ==> r == Missing("destinationId")
  {
    if sourceId !in objects then Missing("sourceId")
    else if destinationId !in objects then Missing("destinationId")
    else BothExist
  }

  // ----- Edge state machine -----

  /** The primary-key violation an insert of an existing triple raises. */
  datatype DbError = DuplicateEntry

  /** `m'` agrees with `m` on every key other than `key`. */
  ghost predicate SameExcept(m: map<AssocKey, AssocRow>, m': map<AssocKey, AssocRow>, key: AssocKey) {
    forall k :: k != key ==> (k in m' <==> k in m) && (k in m ==> m'[k] == m[k])
  }

  /**
   * Inserts an edge created now, with the default status and `data || {}`,
   * then invalidates the pair's cached pages. An existing triple, whether
   * active or soft-deleted, violates the primary key: nothing changes.
   */
  function CreateAssociation(st: Store, sourceId: nat, destinationId: nat, assocType: string,
                             data: Json, now: nat): (res: (Store, Result<(), DbError>))
    ensures var key := AssocKey(sourceId, assocType, destinationId);
      && (res.1.Ok? <==> key !in st.assocs)
      && (res.1.Err? ==> res.0 == st)
      && (res.1.Ok? ==>
        && key in res.0.assocs
        && res.0.assocs[key] == AssocRow(OrEmptyObject(data), now, Active)
        && SameExcept(st.assocs, res.0.assocs, key)
        && res.0.cache == Invalidate(st.cache, sourceId, assocType)
        && res.0.objects == st.objects && res.0.nextId == st.nextId)
  {
    var key := AssocKey(sourceId, assocType, destinationId);
    if key in st.assocs then (st, Err(DuplicateEntry))
    else
      var row := AssocRow(OrEmptyObject(data), now, Active);
      (st.(assocs := st.assocs[key := row], cache := Invalidate(st.cache, sourceId, assocType)), Ok(()))
  }

  /** Reads one edge; only an active edge is seen, so soft-deleted and absent look alike. */
  function GetAssociation(assocs: map<AssocKey, AssocRow>, sourceId: nat, destinationId: nat,
                          assocType: string): (r: Option<AssocRecord>)
    ensures var key := AssocKey(sourceId, assocType, destinationId);
      && (r.Some? <==> key in assocs && assocs[key].status == Active)
      && (r.Some? ==> r.value == AssocRecord(key, assocs[key]))
  {
    var key := AssocKey(sourceId, assocType, destinationId);
    if key in assocs && assocs[key].status == Active then Some(AssocRecord(key, assocs[key])) else None
  }

  /**
   * Changes the supplied fields (data, stored as `data || {}`, and/or status)
   * of the edge whatever its current status. Reports whether the triple
   * exists, and invalidates the pair's cached pages only then. The caller
   * must supply at least one field (an empty SET clause is a syntax error).
   */
  function UpdateAssociation(st: Store, sourceId: nat, destinationId: nat, assocType: string,
                             data: Option<Json>, status: Option<int>): (res: (Store, bool))
    requires data.Some? || status.Some?
    ensures var key := AssocKey(sourceId, assocType, destinationId);
      && (res.1 <==> key in st.assocs)
      && (!res.1 ==> res.0 == st)
      && (res.1 ==>
        && key in res.0.assocs
        && res.0.assocs[key].createdAt == st.assocs[key].createdAt
        && res.0.assocs[key].data == (if data.Some? then OrEmptyObject(data.value) else st.assocs[key].data)
        && res.0.assocs[key].status == (if status.Some? then status.value else st.assocs[key].status)
        && SameExcept(st.assocs, res.0.assocs, key)
        && res.0.cache == Invalidate(st.cache, sourceId, assocType)
        && res.0.objects == st.objects && res.0.nextId == st.nextId)
  {
    var key := AssocKey(sourceId, assocType, destinationId);
    if key !in st.assocs then (st, false)
    else
      var prev := st.assocs[key];
      var row := prev.(data := if data.Some? then OrEmptyObject(data.value) else prev.data,
                      status := if status.Some? then status.value else prev.status);
      (st.(assocs := st.assocs[key := row], cache := Invalidate(st.cache, sourceId, assocType)), true)
  }

  /**
   * Sets the edge's status to 0 whatever it was. Reports whether the triple
   * exists, and invalidates the pair's cached pages only then.
   */
  function SoftDeleteAssociation(st: Store, sourceId: nat, destinationId: nat,
                                 assocType: string): (res: (Store, bool))
    ensures var key := AssocKey(sourceId, assocType, destinationId);
      && (res.1 <==> key in st.assocs)
      && (!res.1 ==> res.0 == st)
      && (res.1 ==>
        && key in res.0.assocs
        && res.0.assocs[key] == st.assocs[key].(status := Deleted)
        && SameExcept(st.assocs, res.0.assocs, key)
        && res.0.cache == Invalidate(st.cache, sourceId, assocType)
        && res.0.objects == st.objects && res.0.nextId == st.nextId)
  {
    var key := AssocKey(sourceId, assocType, destinationId);
    if key !in st.assocs then (st, false)
    else (st.(assocs := st.assocs[key := st.assocs[key].(status := Deleted)],
              cache := Invalidate(st.cache, sourceId, assocType)), true)
  }

  /** The active edges of (source, type), by primary key. */
  function ActiveKeys(assocs: map<AssocKey, AssocRow>, sourceId: nat, assocType: string): (r: set<AssocKey>)
    ensures forall k :: k in r <==>
      k in assocs && k.sourceId == sourceId && k.assocType == assocType && assocs[k].status == Active
  {
    set k | k in assocs && k.sourceId == sourceId && k.assocType == assocType && assocs[k].status == Active
  }

  /** The listed rows of a set of stored keys. */
  function ImageOf(assocs: map<AssocKey, AssocRow>, keys: set<AssocKey>): set<Item>
    requires keys <= assocs.Keys
  {
    set k | k in keys :: ItemOf(k, assocs[k])
  }

  /** Distinct keys of one (source, type) give distinct listed rows, so counting keys counts rows. */
  lemma {:induction false} ImageCardinality(assocs: map<AssocKey, AssocRow>, s: nat, t: string, keys: set<AssocKey>)
    requires keys <= assocs.Keys
    requires forall k :: k in keys ==> k.sourceId == s && k.assocType == t
    ensures |ImageOf(assocs, keys)| == |keys|
    decreases |keys|
  {
    if keys != {} {
      var k :| k in keys;
      var rest := keys - {k};
      ImageCardinality(assocs, s, t, rest);
      assert ImageOf(assocs, keys) == ImageOf(assocs, rest) + {ItemOf(k, assocs[k])};
      assert ItemOf(k, assocs[k]) !in ImageOf(assocs, rest);
    }
  }

  /** The active keys of (source, type) are as many as the rows a complete listing holds. */
  lemma ActiveKeysListed(assocs: map<AssocKey, AssocRow>, s: nat, t: string)
    ensures |ActiveKeys(assocs, s, t)| == |Candidates(assocs, s, t, None)|
  {
    var keys := ActiveKeys(assocs, s, t);
    ImageCardinality(assocs, s, t, keys);
    assert ImageOf(assocs, keys) == Candidates(assocs, s, t, None) by {
      forall x | x in Candidates(assocs, s, t, None) ensures x in ImageOf(assocs, keys) {
        assert AssocKey(s, t, x.destinationId) in keys;
      }
    }
  }

  /**
   * `COUNT(*)` of the active edges of (source, type): the number of rows a
   * listing that follows every page returns.
   */
  function CountAssociations(assocs: map<AssocKey, AssocRow>, sourceId: nat, assocType: string): (r: nat)
    ensures r == |Candidates(assocs, sourceId, assocType, None)|
  {
    ActiveKeysListed(assocs, sourceId, assocType);
    |ActiveKeys(assocs, sourceId, assocType)|
  }

  // ----- Listing -----

  /** An active row of (source, type) as the listing query sees it. */
  predicate IsActiveRow(assocs: map<AssocKey, AssocRow>, sourceId: nat, assocType: string, x: Item) {
    var key := AssocKey(sourceId, assocType, x.destinationId);
    key in assocs && assocs[key].status == Active && ItemOf(key, assocs[key]) == x
  }

  /** The rows a listing query may return: active rows of (source, type) below the cursor, if any. */
  function Candidates(assocs: map<AssocKey, AssocRow>, sourceId: nat, assocType: string,
                      pos: Option<Position>): (r: set<Item>)
    ensures forall x :: x in r <==>
      IsActiveRow(assocs, sourceId, assocType, x) && (pos.None? || Below(x, pos.value))
    ensures KeyedByDestination(r)
  {
    set k | k in assocs && k.sourceId == sourceId && k.assocType == assocType
            && assocs[k].status == Active
            && (pos.None? || Below(ItemOf(k, assocs[k]), pos.value))
      :: ItemOf(k, assocs[k])
  }

  /** The continuation cursor of a page: built from the last row, only when the page is full. */
  function NextCursor(rows: seq<Item>, limit: nat): Option<string> {
    if |rows| == limit then BuildCursor(if |rows| == 0 then None else Some(FieldsOf(rows[|rows| - 1])))
    else None
  }

  /**
   * The listing query without the cache: active rows of (source, type),
   * strictly below the cursor when there is one, in descending
   * (createdAt, destinationId) order, at most `limit` of them, and the
   * continuation cursor of a full page.
   */
  method ListUncached(assocs: map<AssocKey, AssocRow>, sourceId: nat, assocType: string,
                      limit: nat, cursor: Option<Cursor>) returns (page: Page)
    ensures IsPage(page.items, Candidates(assocs, sourceId, assocType, CursorPosition(cursor)), limit)
    ensures page.nextCursor.Some? ==>
      && |page.items| == limit > 0
      && page.nextCursor == BuildCursor(Some(FieldsOf(page.items[|page.items| - 1])))
    ensures page.nextCursor.None? ==>
      |page.items| < limit || limit == 0 || page.items[|page.items| - 1].destinationId == 0
  {
    var eligible := Candidates(assocs, sourceId, assocType, CursorPosition(cursor));
    var sorted := SortDesc(eligible);
    TakeIsPage(sorted, eligible, limit);
    var rows := sorted[..Min(limit, |sorted|)];
    page := Page(rows, NextCursor(rows, limit));
  }

  /**
   * `listAssociations`: a cached page is returned as stored, without reading
   * the table; otherwise the page is computed, stored under its key and
   * returned.
   */
  method ListAssociations(st: Store, sourceId: nat, assocType: string, limit: nat,
                          cursor: Option<Cursor>) returns (st': Store, page: Page)
    ensures var key := PageKey(sourceId, assocType, cursor, limit);
      && (key in st.cache ==> page == st.cache[key] && st' == st)
      && (key !in st.cache ==>
        && st' == st.(cache := st.cache[key := page])
        && IsPage(page.items, Candidates(st.assocs, sourceId, assocType, CursorPosition(cursor)), limit)
        && page.nextCursor == NextCursor(page.items, limit))
  {
    var key := PageKey(sourceId, assocType, cursor, limit);
    if key in st.cache {
      return st, st.cache[key];
    }
    page := ListUncached(st.assocs, sourceId, assocType, limit, cursor);
    st' := st.(cache := st.cache[key := page]);
  }
}

=== FILE: association_validators.dfy ===
/** Validation of association types, payloads and status values. */
module AssociationValidators {
  import opened Wrappers
  import opened Js
  import opened Http
  import Constants

  /** An association type: accepted exactly when it is an allow-listed string. */
  function ValidateAssociationType(v: Json): (r: Result<string, HttpError>)
    ensures r.Ok? <==> v.JStr? && v.s in Constants.AssociationTypes
    ensures r.Ok? ==> r.value == v.s
    ensures r.Err? ==> r.error == BadRequest("Invalid associationType")
  {
    if v.JStr? && v.s in Constants.AssociationTypes then Ok(v.s)
    else Err(BadRequest("Invalid associationType"))
  }

  /**
   * The one optional string field each association type checks in its
   * payload, if any (the per-type rule registry).
   */
  function CheckedField(assocType: string): Option<string> {
    if assocType == "friend" then Some("note")
    else if assocType == "like" then Some("reaction")
    else if assocType == "follow" then Some("note")
    else if assocType == "authored" then Some("role")
    else if assocType == "tagged_in" then Some("context")
    else if assocType == "located_at" then Some("precision")
    else if assocType == "has_comment" then Some("note")
    else None
  }

  /** The payload satisfies its type's rule: the checked field, if present, is a string. */
  predicate SatisfiesRule(assocType: string, payload: Json) {
    CheckedField(assocType).None? || IsOptionalString(Field(payload, CheckedField(assocType).value))
  }

  /**
   * Validates an optional association payload. Undefined is allowed and
   * yields None; otherwise the payload must be a plain object whose checked
   * field, if present, is a string, and is returned unchanged.
   */
  function ValidateAssociationData(assocType: string, data: Json): (r: Result<Option<Json>, HttpError>)
    ensures data.JUndefined? ==> r == Ok(None)
    ensures r.Ok? && r.value.Some? ==> r.value.value == data
    ensures !data.JUndefined? ==> (r.Ok? <==> IsPlainObject(data) && SatisfiesRule(assocType, data))
    ensures !data.JUndefined? && !IsPlainObject(data) ==> r == Err(BadRequest("Invalid data"))
    ensures IsPlainObject(data) && r.Err? ==>
      r.error == BadRequest("Invalid data." + CheckedField(assocType).value)
  {
    if data.JUndefined? then Ok(None)
    else if !data.JObj? then Err(BadRequest("Invalid data"))
    else match CheckedField(assocType)
      case None => Ok(Some(data))
      case Some(f) =>
        if IsOptionalString(Field(data, f)) then Ok(Some(data))
        else Err(BadRequest("Invalid data." + f))
  }

  /** Every allow-listed type checks exactly one field. */
  lemma EveryAllowedTypeHasRule(t: string)
    requires t in Constants.AssociationTypes
    ensures CheckedField(t).Some?
  {
  }

  /**
   * Keys other than the type's checked field are unconstrained: changing or
   * adding any other key never changes the verdict.
   */
  lemma OtherKeysUnconstrained(assocType: string, fields: map<string, Json>, key: string, value: Json)
    requires CheckedField(assocType).None? || key != CheckedField(assocType).value
    ensures ValidateAssociationData(assocType, JObj(fields[key := value])).Ok?
        == ValidateAssociationData(assocType, JObj(fields)).Ok?
  {
  }

  /** A status value: undefined stays undefined; otherwise only 0 and 1 are accepted. */
  function ParseAssociationStatus(v: Option<JsNumber>): (r: Result<Option<int>, HttpError>)
    ensures v.None? ==> r == Ok(None)
    ensures v.Some? ==> (r.Ok? <==> v.value == Finite(0.0) || v.value == Finite(1.0))
    ensures r.Ok? && r.value.Some? ==>
      (r.value.value == 0 || r.value.value == 1) && v == Some(Finite(r.value.value as real))
    ensures r.Err? ==> r.error == BadRequest("Invalid status")
  {
    match v
    case None => Ok(None)
    case Some(n) =>
      if n.Finite? && IsInteger(n.value) && (n.value == 0.0 || n.value == 1.0) then Ok(Some(n.value.Floor))
      else Err(BadRequest("Invalid status"))
  }
}

=== FILE: cache_freshness.dfy ===
/**
 * Freshness of cached first pages. Every write to a pair invalidates that
 * pair's keys, so a first page found in the cache is the page the table
 * gives now. Continuation pages share one key per (source, type, limit),
 * so no such guarantee is stated for them.
 */
module CacheFreshness {
  import opened Wrappers
  import opened Schema
  import opened CommonValidators
  import opened CacheKeys
  import opened Pagination
  import opened AssociationService
  import Constants

  /**
   * Every first page cached for an allow-listed type is the current answer
   * of the listing query for its (source, type, limit).
   */
  ghost predicate FreshFirstPages(st: Store) {
    forall s: nat, t: string, l: nat {:trigger PageKey(s, t, None, l)} ::
      t in Constants.AssociationTypes && PageKey(s, t, None, l) in st.cache ==>
        && IsPage(st.cache[PageKey(s, t, None, l)].items, Candidates(st.assocs, s, t, None), l)
        && st.cache[PageKey(s, t, None, l)].nextCursor == NextCursor(st.cache[PageKey(s, t, None, l)].items, l)
  }

  /** The schema's empty state caches nothing, so it is fresh. */
  lemma EmptyIsFresh()
    ensures FreshFirstPages(Empty)
  {
  }

  /** A change to one edge leaves the listing of every other pair as it was. */
  lemma {:induction false} CandidatesOfOtherPair(m: map<AssocKey, AssocRow>, m': map<AssocKey, AssocRow>,
                                                 key: AssocKey, s: nat, t: string, pos: Option<Position>)
    requires SameExcept(m, m', key)
    requires key.sourceId != s || key.assocType != t
    ensures Candidates(m, s, t, pos) == Candidates(m', s, t, pos)
  {
    forall x | x in Candidates(m, s, t, pos)
      ensures x in Candidates(m', s, t, pos)
    {
      assert AssocKey(s, t, x.destinationId) != key;
    }
    forall x | x in Candidates(m', s, t, pos)
      ensures x in Candidates(m, s, t, pos)
    {
      assert AssocKey(s, t, x.destinationId) != key;
    }
  }

  /**
   * Storing a page under its key keeps the cache fresh, provided a first
   * page stored is the current answer: no other pair, limit or cursor kind
   * shares the key.
   */
  lemma {:induction false} StoreKeepsFresh(st: Store, s: nat, t: string, cursor: Option<Cursor>, l: nat, page: Page)
    requires FreshFirstPages(st)
    requires t in Constants.AssociationTypes
    requires cursor.None? ==>
      IsPage(page.items, Candidates(st.assocs, s, t, None), l) && page.nextCursor == NextCursor(page.items, l)
    ensures FreshFirstPages(st.(cache := st.cache[PageKey(s, t, cursor, l) := page]))
  {
    var st' := st.(cache := st.cache[PageKey(s, t, cursor, l) := page]);
    forall s': nat, t': string, l': nat | t' in Constants.AssociationTypes && PageKey(s', t', None, l') in st'.cache
      ensures IsPage(st'.cache[PageKey(s', t', None, l')].items, Candidates(st'.assocs, s', t', None), l')
      ensures st'.cache[PageKey(s', t', None, l')].nextCursor == NextCursor(st'.cache[PageKey(s', t', None, l')].items, l')
    {
      AllowedTypesPlain(t);
      AllowedTypesPlain(t');
      if PageKey(s', t', None, l') == PageKey(s, t, cursor, l) {
        if cursor.Some? {
          ContinuationKeyNotFirst(s, t, cursor.value, l, s', t', l');
        } else {
          FirstPageKeyInjective(s, t, l, s', t', l');
        }
      }
    }
  }

  /**
   * A write to one edge of an allow-listed pair that invalidates that pair's
   * keys keeps the cache fresh: every first page that survives belongs to a
   * pair whose rows did not change.
   */
  lemma {:induction false} WriteKeepsFresh(st: Store, st': Store, key: AssocKey)
    requires FreshFirstPages(st)
    requires key.assocType in Constants.AssociationTypes
    requires SameExcept(st.assocs, st'.assocs, key)
    requires st'.cache == Invalidate(st.cache, key.sourceId, key.assocType)
    ensures FreshFirstPages(st')
  {
    AllowedTypesPlain(key.assocType);
    forall s: nat, t: string, l: nat | t in Constants.AssociationTypes && PageKey(s, t, None, l) in st'.cache
      ensures IsPage(st'.cache[PageKey(s, t, None, l)].items, Candidates(st'.assocs, s, t, None), l)
      ensures st'.cache[PageKey(s, t, None, l)].nextCursor == NextCursor(st'.cache[PageKey(s, t, None, l)].items, l)
    {
      AllowedTypesPlain(t);
      PrefixOwnsKey(key.sourceId, key.assocType, s, t, None, l);
      CandidatesOfOtherPair(st.assocs, st'.assocs, key, s, t, None);
    }
  }
}

=== FILE: cache_keys.dfy ===
/**
 * The cache key scheme of association listings and its invalidation by
 * glob pattern ("remove every key the pattern matches").
 */
module CacheKeys {
  import opened Wrappers
  import opened Decimal
  import opened Schema
  import opened CommonValidators
  import Constants

  /**
   * How the key template renders the cursor argument: a missing cursor is
   * "start"; a decoded cursor is an object, which a template literal renders
   * as "[object Object]" whatever its fields hold.
   */
  function CursorText(cursor: Option<Cursor>): string {
    if cursor.None? then "start" else "[object Object]"
  }

  /** The key prefix shared by every listing page of (source, type). */
  function PairPrefix(sourceId: nat, assocType: string): string {
    "assoc:" + NatToString(sourceId) + ":" + assocType + ":"
  }

  /** The cache key of a listing page. */
  function PageKey(sourceId: nat, assocType: string, cursor: Option<Cursor>, limit: nat): (key: string)
    ensures PairPrefix(sourceId, assocType) <= key
  {
    PairPrefix(sourceId, assocType) + CursorText(cursor) + ":" + NatToString(limit)
  }

  /** The invalidation pattern of (source, type). */
  function Pattern(sourceId: nat, assocType: string): string {
    PairPrefix(sourceId, assocType) + "*"
  }

  /** Glob matching as the cache tier's MATCH option does it, for `*`, `?` and literal characters. */
  predicate GlobMatch(pattern: string, key: string)
    decreases |pattern| + |key|
  {
    if |pattern| == 0 then |key| == 0
    else if pattern[0] == '*' then GlobMatch(pattern[1..], key) || (|key| > 0 && GlobMatch(pattern, key[1..]))
    else if pattern[0] == '?' then |key| > 0 && GlobMatch(pattern[1..], key[1..])
    else |key| > 0 && key[0] == pattern[0] && GlobMatch(pattern[1..], key[1..])
  }

  /** No glob metacharacter and no key separator. */
  predicate Plain(s: string) {
    '*' !in s && '?' !in s && ':' !in s
  }

  lemma {:induction false} StarMatchesAll(key: string)
    ensures GlobMatch("*", key)
    decreases |key|
  {
    if |key| > 0 {
      StarMatchesAll(key[1..]);
    } else {
      assert "*"[1..] == "";
    }
  }

  /** A literal text followed by `*` matches exactly the keys that start with that text. */
  lemma {:induction false} PrefixStarMatches(lit: string, key: string)
    requires '*' !in lit && '?' !in lit
    ensures GlobMatch(lit + "*", key) <==> lit <= key
    decreases |lit|
  {
    if |lit| == 0 {
      assert lit + "*" == "*";
      StarMatchesAll(key);
    } else {
      var p := lit + "*";
      assert p[0] == lit[0] && p[1..] == lit[1..] + "*";
      if |key| > 0 {
        PrefixStarMatches(lit[1..], key[1..]);
        assert lit <= key <==> key[0] == lit[0] && lit[1..] <= key[1..];
      }
    }
  }

  /** A key belongs to (source, type) exactly when the pattern of (source, type) matches it. */
  lemma PatternMatchesPrefix(sourceId: nat, assocType: string, key: string)
    requires Plain(assocType)
    ensures GlobMatch(Pattern(sourceId, assocType), key) <==> PairPrefix(sourceId, assocType) <= key
  {
    var lit := PairPrefix(sourceId, assocType);
    NonDigitAbsent(NatToString(sourceId), '*');
    NonDigitAbsent(NatToString(sourceId), '?');
    PrefixStarMatches(lit, key);
  }

  /** `invalidateAssociationCache`: every cached key the pattern matches is deleted, nothing else. */
  function Invalidate(cache: map<string, Page>, sourceId: nat, assocType: string): (r: map<string, Page>)
    ensures forall k :: k in r ==> k in cache && r[k] == cache[k]
    ensures Plain(assocType) ==>
      forall k :: k in r <==> k in cache && !(PairPrefix(sourceId, assocType) <= k)
  {
    var pattern := Pattern(sourceId, assocType);
    if Plain(assocType) then
      assert forall k :: GlobMatch(pattern, k) <==> PairPrefix(sourceId, assocType) <= k by {
        forall k: string ensures GlobMatch(pattern, k) <==> PairPrefix(sourceId, assocType) <= k {
          PatternMatchesPrefix(sourceId, assocType, k);
        }
      }
      map k | k in cache && !GlobMatch(pattern, k) :: cache[k]
    else
      map k | k in cache && !GlobMatch(pattern, k) :: cache[k]
  }

  /** Two texts free of ':' that agree up to a following ':' are equal. */
  lemma {:induction false} SeparatedPrefix(a: string, b: string, restA: string, restB: string)
    requires ':' !in a && ':' !in b
    requires a + ":" + restA <= b + ":" + restB
    ensures a == b
    decreases |a|
  {
    var x := a + ":" + restA;
    var y := b + ":" + restB;
    if |a| == 0 {
      assert x[0] == ':';
    } else {
      assert x[0] == a[0] && a[0] in a;
      assert y[0] != ':';
      assert x[0] == a[0] && y[0] == b[0];
      assert x[1..] == a[1..] + ":" + restA;
      assert y[1..] == b[1..] + ":" + restB;
      SeparatedPrefix(a[1..], b[1..], restA, restB);
      assert a == [a[0]] + a[1..] && b == [b[0]] + b[1..];
    }
  }

  lemma PrefixCancel(c: string, x: string, y: string)
    requires c + x <= c + y
    ensures x <= y
  {
    assert x == (c + x)[|c|..];
    assert y[..|x|] == (c + y)[|c|..|c| + |x|];
  }

  /** Two pair prefixes nested in one another name the same pair. */
  lemma PairTextsAgree(a: string, t: string, b: string, t': string, rest: string)
    requires ':' !in a && ':' !in t && ':' !in b && ':' !in t'
    requires "assoc:" + a + ":" + t + ":" <= "assoc:" + b + ":" + t' + ":" + rest
    ensures a == b && t == t'
  {
    var restA := t + ":";
    var restB := t' + ":" + rest;
    assert "assoc:" + a + ":" + t + ":" == "assoc:" + (a + ":" + restA);
    assert "assoc:" + b + ":" + t' + ":" + rest == "assoc:" + (b + ":" + restB);
    PrefixCancel("assoc:", a + ":" + restA, b + ":" + restB);
    SeparatedPrefix(a, b, restA, restB);
    assert a + ":" + restA == (a + ":") + (t + ":" + "");
    assert b + ":" + restB == (b + ":") + (t' + ":" + rest);
    PrefixCancel(a + ":", t + ":" + "", t' + ":" + rest);
    SeparatedPrefix(t, t', "", rest);
  }

  /** The prefix of (s, t) starts a page key of (s', t') only when (s', t') is (s, t). */
  lemma PrefixOwnsKey(s: nat, t: string, s': nat, t': string, cursor: Option<Cursor>, limit: nat)
    requires Plain(t) && Plain(t')
    ensures PairPrefix(s, t) <= PageKey(s', t', cursor, limit) <==> s == s' && t == t'
  {
    if PairPrefix(s, t) <= PageKey(s', t', cursor, limit) {
      var a := NatToString(s);
      var b := NatToString(s');
      NonDigitAbsent(a, ':');
      NonDigitAbsent(b, ':');
      var rest := CursorText(cursor) + ":" + NatToString(limit);
      assert PageKey(s', t', cursor, limit) == "assoc:" + b + ":" + t' + ":" + rest;
      PairTextsAgree(a, t, b, t', rest);
      NatToStringInjective(s, s');
    }
  }

  /** Invalidating (s, t) removes every page cached for (s, t), whatever its cursor and limit. */
  lemma InvalidateRemovesPair(cache: map<string, Page>, s: nat, t: string, cursor: Option<Cursor>, limit: nat)
    requires Plain(t)
    ensures PageKey(s, t, cursor, limit) !in Invalidate(cache, s, t)
  {
  }

  /** Invalidating (s, t) leaves every page cached for another pair exactly as it was. */
  lemma InvalidateKeepsOtherPairs(cache: map<string, Page>, s: nat, t: string,
                                  s': nat, t': string, cursor: Option<Cursor>, limit: nat)
    requires Plain(t) && Plain(t')
    requires s != s' || t != t'
    ensures var key := PageKey(s', t', cursor, limit);
      && (key in Invalidate(cache, s, t) <==> key in cache)
      && (key in cache ==> Invalidate(cache, s, t)[key] == cache[key])
  {
    PrefixOwnsKey(s, t, s', t', cursor, limit);
  }

  /**
   * Every continuation page of (source, type, limit) has one and the same key,
   * whichever cursor it continues from: the key does not depend on the cursor's fields.
   */
  lemma ContinuationKeysCoincide(s: nat, t: string, c1: Cursor, c2: Cursor, limit: nat)
    ensures PageKey(s, t, Some(c1), limit) == PageKey(s, t, Some(c2), limit)
  {
  }

  /** The first page and the continuation pages never share a key. */
  lemma FirstPageKeyDiffers(s: nat, t: string, c: Cursor, limit: nat)
    ensures PageKey(s, t, None, limit) != PageKey(s, t, Some(c), limit)
  {
    var p := PairPrefix(s, t);
    assert PageKey(s, t, None, limit)[|p|] == 's';
    assert PageKey(s, t, Some(c), limit)[|p|] == '[';
  }

  /** Allow-listed association types carry no glob metacharacter and no separator. */
  lemma AllowedTypesPlain(t: string)
    requires t in Constants.AssociationTypes
    ensures Plain(t)
  {
  }

  /** A first-page key names its source, type and limit: distinct triples have distinct keys. */
  lemma FirstPageKeyInjective(s: nat, t: string, l: nat, s': nat, t': string, l': nat)
    requires Plain(t) && Plain(t')
    requires PageKey(s, t, None, l) == PageKey(s', t', None, l')
    ensures s == s' && t == t' && l == l'
  {
    PrefixOwnsKey(s, t, s', t', None, l');
    var p := PairPrefix(s, t);
    var key := PageKey(s, t, None, l);
    assert key == p + "start:" + NatToString(l);
    assert key == p + "start:" + NatToString(l');
    assert NatToString(l) == key[|p| + 6..] == NatToString(l');
    NatToStringInjective(l, l');
  }

  /** No continuation key of any pair is the first-page key of any pair. */
  lemma ContinuationKeyNotFirst(s: nat, t: string, c: Cursor, l: nat, s': nat, t': string, l': nat)
    requires Plain(t) && Plain(t')
    ensures PageKey(s, t, Some(c), l) != PageKey(s', t', None, l')
  {
    if s == s' && t == t' {
      var p := PairPrefix(s, t);
      assert PageKey(s, t, Some(c), l)[|p|] == '[';
      assert PageKey(s', t', None, l')[|p|] == 's';
    } else {
      PrefixOwnsKey(s', t', s, t, Some(c), l);
    }
  }
}

=== FILE: chaining.dfy ===
/**
 * A client that follows `nextCursor` from the first page until it is null,
 * on the uncached query path, with every cursor passing through the
 * encoder and the request-side decoder.
 */
module Chaining {
  import opened Wrappers
  import opened Js
  import opened Schema
  import opened CommonValidators
  import opened Pagination
  import opened AssociationService

  /** The rows of a sequence of pages, in order. */
  function Concat(pages: seq<Page>): seq<Item> {
    if |pages| == 0 then [] else Concat(pages[..|pages| - 1]) + pages[|pages| - 1].items
  }

  /** The rows of `all` strictly below `pos` (all of them when there is no cursor). */
  function Remaining(all: set<Item>, pos: Option<Position>): set<Item> {
    if pos.None? then all else set x | x in all && Below(x, pos.value)
  }

  /** The listing query's candidate set is the full listing cut at the cursor. */
  lemma CandidatesAreRemaining(assocs: map<AssocKey, AssocRow>, s: nat, t: string, pos: Option<Position>)
    ensures Candidates(assocs, s, t, pos) == Remaining(Candidates(assocs, s, t, None), pos)
  {
  }

  /** A listed row of a store whose destination ids are positive has a positive destination id. */
  lemma CandidateDestinationPositive(assocs: map<AssocKey, AssocRow>, s: nat, t: string,
                                     pos: Option<Position>, x: Item)
    requires forall k :: k in assocs ==> k.destinationId > 0
    requires x in Candidates(assocs, s, t, pos)
    ensures x.destinationId > 0
  {
    assert AssocKey(s, t, x.destinationId) in assocs;
  }

  /** Every visited row comes before every row still to visit. */
  ghost predicate Ahead(visited: seq<Item>, rem: set<Item>) {
    forall i, x :: 0 <= i < |visited| && x in rem ==> Before(visited[i], x)
  }

  /**
   * Mid-walk state: `visited` is descending, and together with the rows
   * still below the cursor it partitions the listing, every visited row
   * coming before every remaining one.
   */
  ghost predicate Walking(all: set<Item>, pos: Option<Position>, visited: seq<Item>) {
    && SortedDesc(visited)
    && (pos.None? ==> visited == [])
    && Elems(visited) !! Remaining(all, pos)
    && Elems(visited) + Remaining(all, pos) == all
    && Ahead(visited, Remaining(all, pos))
  }

  /** Every page of the sequence carries a continuation cursor. */
  predicate AllContinue(pages: seq<Page>) {
    forall i :: 0 <= i < |pages| ==> pages[i].nextCursor.Some?
  }

  lemma AllContinueSnoc(pages: seq<Page>, page: Page)
    requires AllContinue(pages)
    ensures page.nextCursor.Some? ==> AllContinue(pages + [page])
    ensures forall i :: 0 <= i < |pages + [page]| - 1 ==> (pages + [page])[i].nextCursor.Some?
  {
  }

  lemma ConcatSnoc(pages: seq<Page>, page: Page)
    ensures Concat(pages + [page]) == Concat(pages) + page.items
  {
    assert (pages + [page])[..|pages|] == pages;
  }

  /**
   * After a full page, the rows below its last row are exactly the
   * remaining rows the page did not return.
   */
  lemma NextRemainder(all: set<Item>, pos: Option<Position>, rows: seq<Item>, limit: nat)
    requires IsPage(rows, Remaining(all, pos), limit) && |rows| > 0
    ensures Remaining(all, Some(PositionOf(rows[|rows| - 1]))) == Remaining(all, pos) - Elems(rows)
  {
    var rem := Remaining(all, pos);
    var last := rows[|rows| - 1];
    var next := Remaining(all, Some(PositionOf(last)));
    assert last in rem;
    forall x | x in next ensures x in rem - Elems(rows) {
      forall i | 0 <= i < |rows| ensures rows[i] != x {
        if i < |rows| - 1 {
          assert Before(rows[i], last);
        }
      }
    }
    forall x | x in rem - Elems(rows) ensures x in next {
      assert Before(last, x);
    }
  }

  /** Rows drawn from the remaining set come after every visited row. */
  lemma AheadOfRows(visited: seq<Item>, rows: seq<Item>, rem: set<Item>)
    requires Ahead(visited, rem) && Elems(rows) <= rem
    ensures forall i, j :: 0 <= i < |visited| && 0 <= j < |rows| ==> Before(visited[i], rows[j])
  {
    forall i, j | 0 <= i < |visited| && 0 <= j < |rows| ensures Before(visited[i], rows[j]) {
      assert rows[j] in Elems(rows);
    }
  }

  /** The rows after a full page's last row all come after every row seen so far. */
  lemma AheadAfterPage(visited: seq<Item>, rows: seq<Item>, rem: set<Item>, rem': set<Item>)
    requires |rows| > 0 && SortedDesc(rows)
    requires Ahead(visited, rem) && rem' <= rem
    requires forall x :: x in rem' ==> Before(rows[|rows| - 1], x)
    ensures Ahead(visited + rows, rem')
  {
    var last := rows[|rows| - 1];
    var visited' := visited + rows;
    forall i, x | 0 <= i < |visited'| && x in rem'
      ensures Before(visited'[i], x)
    {
      if i < |visited| {
        assert visited'[i] == visited[i];
      } else {
        assert visited'[i] == rows[i - |visited|];
        if i < |visited'| - 1 {
          assert Before(visited'[i], last);
        }
      }
    }
  }

  /** A non-empty page leaves fewer rows below its last row than there were below the cursor. */
  lemma FullPageShrinks(all: set<Item>, pos: Option<Position>, rows: seq<Item>, limit: nat)
    requires IsPage(rows, Remaining(all, pos), limit) && |rows| > 0
    ensures |Remaining(all, Some(PositionOf(rows[|rows| - 1])))| < |Remaining(all, pos)|
  {
    var rem := Remaining(all, pos);
    var last := rows[|rows| - 1];
    var rem' := Remaining(all, Some(PositionOf(last)));
    NextRemainder(all, pos, rows, limit);
    assert last in Elems(rows);
    assert last in rem;
    assert rem' < rem;
  }

  /** Moving a page's rows from the remaining set to the visited set keeps the partition. */
  lemma PartitionStep(all: set<Item>, seen: set<Item>, page: set<Item>, rem: set<Item>, rem': set<Item>)
    requires seen !! rem && seen + rem == all
    requires page <= rem && rem' == rem - page
    ensures (seen + page) !! rem' && (seen + page) + rem' == all
  {
  }

  /** Following the cursor of a full page keeps the walk state. */
  lemma FullPageStep(all: set<Item>, pos: Option<Position>, visited: seq<Item>, rows: seq<Item>, limit: nat)
    requires Walking(all, pos, visited)
    requires IsPage(rows, Remaining(all, pos), limit) && |rows| > 0
    ensures Walking(all, Some(PositionOf(rows[|rows| - 1])), visited + rows)
  {
    var rem := Remaining(all, pos);
    var last := rows[|rows| - 1];
    var rem' := Remaining(all, Some(PositionOf(last)));
    NextRemainder(all, pos, rows, limit);
    AheadOfRows(visited, rows, rem);
    SortedConcat(visited, rows);
    assert Elems(visited + rows) == Elems(visited) + Elems(rows);
    PartitionStep(all, Elems(visited), Elems(rows), rem, rem');
    assert forall x :: x in rem' ==> Before(last, x);
    AheadAfterPage(visited, rows, rem, rem');
  }

  /** A page shorter than the limit is the last one: the walk has then seen every row. */
  lemma LastPageStep(all: set<Item>, pos: Option<Position>, visited: seq<Item>, rows: seq<Item>, limit: nat)
    requires Walking(all, pos, visited)
    requires IsPage(rows, Remaining(all, pos), limit) && |rows| < limit
    ensures SortedDesc(visited + rows)
    ensures Elems(visited + rows) == all
  {
    ShortPageIsEverything(rows, Remaining(all, pos), limit);
    AheadOfRows(visited, rows, Remaining(all, pos));
    SortedConcat(visited, rows);
    assert Elems(visited + rows) == Elems(visited) + Elems(rows);
  }

  /**
   * One request of the walk: list the page at `cursor` and decode the
   * continuation cursor the client sends next, if the page has one.
   */
  method NextPage(assocs: map<AssocKey, AssocRow>, s: nat, t: string, limit: nat,
                  cursor: Option<Cursor>, ghost visited: seq<Item>) returns (page: Page, next: Option<Cursor>)
    requires 1 <= limit
    requires forall k :: k in assocs ==> k.destinationId > 0
    requires Walking(Candidates(assocs, s, t, None), CursorPosition(cursor), visited)
    ensures page.nextCursor.None? ==>
      && SortedDesc(visited + page.items)
      && Elems(visited + page.items) == Candidates(assocs, s, t, None)
    ensures page.nextCursor.Some? ==>
      && next.Some?
      && Walking(Candidates(assocs, s, t, None), CursorPosition(next), visited + page.items)
      && |Remaining(Candidates(assocs, s, t, None), CursorPosition(next))|
         < |Remaining(Candidates(assocs, s, t, None), CursorPosition(cursor))|
  {
    ghost var all := Candidates(assocs, s, t, None);
    page := ListUncached(assocs, s, t, limit, cursor);
    CandidatesAreRemaining(assocs, s, t, CursorPosition(cursor));
    var rows := page.items;
    if |rows| > 0 {
      CandidateDestinationPositive(assocs, s, t, CursorPosition(cursor), rows[|rows| - 1]);
    }
    if page.nextCursor.None? {
      LastPageStep(all, CursorPosition(cursor), visited, rows, limit);
      next := cursor;
    } else {
      var last := rows[|rows| - 1];
      ItemCursorRoundTrip(last);
      var parsed := ParseCursor(JStr(page.nextCursor.value));
      FullPageStep(all, CursorPosition(cursor), visited, rows, limit);
      FullPageShrinks(all, CursorPosition(cursor), rows, limit);
      next := parsed.value;
    }
  }

  /**
   * Chaining uncached pages from no cursor visits every active row of
   * (source, type) exactly once, in descending (createdAt, destinationId)
   * order; every page but the last carries a cursor and the last carries none.
   */
  method WalkAll(assocs: map<AssocKey, AssocRow>, s: nat, t: string, limit: nat) returns (pages: seq<Page>)
    requires 1 <= limit
    requires forall k :: k in assocs ==> k.destinationId > 0
    ensures |pages| >= 1
    ensures pages[|pages| - 1].nextCursor.None?
    ensures forall i :: 0 <= i < |pages| - 1 ==> pages[i].nextCursor.Some?
    ensures SortedDesc(Concat(pages))
    ensures Elems(Concat(pages)) == Candidates(assocs, s, t, None)
    ensures |Concat(pages)| == CountAssociations(assocs, s, t)
  {
    ghost var all := Candidates(assocs, s, t, None);
    var cursor: Option<Cursor> := None;
    var done := false;
    pages := [];
    while !done
      invariant done ==> |pages| >= 1 && pages[|pages| - 1].nextCursor.None?
      invariant done ==> SortedDesc(Concat(pages)) && Elems(Concat(pages)) == all
      invariant done ==> forall i :: 0 <= i < |pages| - 1 ==> pages[i].nextCursor.Some?
      invariant !done ==> AllContinue(pages)
      invariant !done ==> Walking(all, CursorPosition(cursor), Concat(pages))
      decreases |Remaining(all, CursorPosition(cursor))| + (if done then 0 else 1)
    {
      var page, next := NextPage(assocs, s, t, limit, cursor, Concat(pages));
      ConcatSnoc(pages, page);
      AllContinueSnoc(pages, page);
      pages := pages + [page];
      if page.nextCursor.None? {
        done := true;
      } else {
        cursor := next;
      }
    }
    SortedDistinctCard(Concat(pages));
  }
}

=== FILE: common.dfy ===
/** The shared request validators: ids, page sizes and cursors. */
module CommonValidators {
  import opened Wrappers
  import opened Js
  import opened Decimal
  import opened Http
  import Constants

  /** A decoded continuation cursor: the text of a timestamp and a destination id. */
  datatype Cursor = Cursor(createdAt: string, destinationId: nat)

  /** `v` (after `Number(...)`) is an integer greater than zero. */
  predicate IsPositiveId(v: JsNumber) {
    v.Finite? && IsInteger(v.value) && v.value > 0.0
  }

  /** An id parameter: accepted exactly when it is a positive integer, and then returned. */
  function ParseId(v: JsNumber, field: string): (r: Result<nat, HttpError>)
    ensures r.Ok? <==> IsPositiveId(v)
    ensures r.Ok? ==> r.value > 0 && r.value as real == v.value
    ensures r.Err? ==> r.error == BadRequest("Invalid " + field)
  {
    if v.Finite? && IsInteger(v.value) && v.value > 0.0 then Ok(v.value.Floor)
    else Err(BadRequest("Invalid " + field))
  }

  /** The page size of a listing: 20 when absent, else a positive integer capped at 100. */
  function ParseLimit(v: Option<JsNumber>): (r: Result<nat, HttpError>)
    ensures v.None? ==> r == Ok(Constants.DefaultListLimit)
    ensures v.Some? ==> (r.Ok? <==> IsPositiveId(v.value))
    ensures r.Ok? ==> 1 <= r.value <= Constants.MaxListLimit
    ensures v.Some? && r.Ok? ==>
      (v.value.value <= Constants.MaxListLimit as real ==> r.value as real == v.value.value)
      && (v.value.value > Constants.MaxListLimit as real ==> r.value == Constants.MaxListLimit)
    ensures r.Err? ==> r.error == BadRequest("Invalid limit")
  {
    match v
    case None => Ok(Constants.DefaultListLimit)
    case Some(n) =>
      if n.Finite? && IsInteger(n.value) && n.value > 0.0 then
        var parsed := n.value.Floor;
        Ok(if parsed < Constants.MaxListLimit then parsed else Constants.MaxListLimit)
      else Err(BadRequest("Invalid limit"))
  }

  /** Number of occurrences of `c` in `s`. */
  function Occurrences(s: string, c: char): nat {
    if |s| == 0 then 0 else (if s[0] == c then 1 else 0) + Occurrences(s[1..], c)
  }

  /** `s.split(sep)`: the pieces between occurrences of `sep`, in order. */
  function Split(s: string, sep: char): (parts: seq<string>)
    ensures |parts| == Occurrences(s, sep) + 1
    ensures forall i :: 0 <= i < |parts| ==> sep !in parts[i]
  {
    if |s| == 0 then [""]
    else
      var rest := Split(s[1..], sep);
      if s[0] == sep then [""] + rest else [[s[0]] + rest[0]] + rest[1..]
  }

  /** `parts.join(sep)`. */
  function Join(parts: seq<string>, sep: char): string
    requires |parts| >= 1
  {
    if |parts| == 1 then parts[0] else parts[0] + [sep] + Join(parts[1..], sep)
  }

  lemma {:induction false} SplitOfPlain(a: string, sep: char)
    requires sep !in a
    ensures Split(a, sep) == [a]
  {
    if |a| > 0 {
      SplitOfPlain(a[1..], sep);
      assert [a[0]] + a[1..] == a;
    }
  }

  lemma {:induction false} SplitOfPrefix(a: string, sep: char, rest: string)
    requires sep !in a
    ensures Split(a + [sep] + rest, sep) == [a] + Split(rest, sep)
  {
    if |a| == 0 {
      assert a + [sep] + rest == [sep] + rest;
      assert ([sep] + rest)[1..] == rest;
    } else {
      var s := a + [sep] + rest;
      assert s[1..] == a[1..] + [sep] + rest;
      SplitOfPrefix(a[1..], sep, rest);
      assert [a[0]] + a[1..] == a;
    }
  }

  /** Splitting undoes joining pieces that do not contain the separator. */
  lemma {:induction false} SplitJoin(parts: seq<string>, sep: char)
    requires |parts| >= 1
    requires forall i :: 0 <= i < |parts| ==> sep !in parts[i]
    ensures Split(Join(parts, sep), sep) == parts
    decreases |parts|
  {
    if |parts| == 1 {
      SplitOfPlain(parts[0], sep);
    } else {
      SplitJoin(parts[1..], sep);
      SplitOfPrefix(parts[0], sep, Join(parts[1..], sep));
      assert [parts[0]] + parts[1..] == parts;
    }
  }

  /** Joining undoes splitting: no character is lost or added. */
  lemma {:induction false} JoinSplit(s: string, sep: char)
    ensures Join(Split(s, sep), sep) == s
    decreases |s|
  {
    if |s| > 0 {
      JoinSplit(s[1..], sep);
      var rest := Split(s[1..], sep);
      if s[0] == sep {
        assert ([""] + rest)[1..] == rest;
      } else {
        var parts := [[s[0]] + rest[0]] + rest[1..];
        if |rest| == 1 {
          assert parts == [[s[0]] + rest[0]];
        } else {
          assert parts[1..] == rest[1..];
          assert Join(rest, sep) == rest[0] + [sep] + Join(rest[1..], sep);
        }
      }
    }
  }

  /** The two-piece case the cursor format uses. */
  lemma SplitPair(a: string, b: string, sep: char)
    requires sep !in a && sep !in b
    ensures Split(a + [sep] + b, sep) == [a, b]
  {
    SplitJoin([a, b], sep);
    assert Join([a, b], sep) == a + [sep] + Join([b], sep);
  }

  /**
   * Decodes the text of a non-empty cursor: exactly two `|`-separated parts,
   * the second a positive integer (checked first), the first not empty.
   */
  function ParseCursorText(text: string): (r: Result<Cursor, HttpError>)
    ensures var parts := Split(text, '|');
      && (r.Ok? <==> |parts| == 2 && IsPositiveId(StringToNumber(parts[1])) && parts[0] != "")
      && (|parts| != 2 ==> r == Err(BadRequest("Invalid cursor")))
      && (|parts| == 2 && !IsPositiveId(StringToNumber(parts[1])) ==>
            r == Err(BadRequest("Invalid cursor destinationId")))
      && (|parts| == 2 && IsPositiveId(StringToNumber(parts[1])) && parts[0] == "" ==>
            r == Err(BadRequest("Invalid cursor")))
      && (r.Ok? ==> r.value.createdAt == parts[0]
                    && r.value.destinationId as real == StringToNumber(parts[1]).value)
    ensures r.Ok? ==>
      && r.value.createdAt != ""
      && '|' !in r.value.createdAt
      && r.value.destinationId > 0
      && Occurrences(text, '|') == 1
  {
    assert "Invalid " + "cursor destinationId" == "Invalid cursor destinationId";
    var parts := Split(text, '|');
    if |parts| != 2 then Err(BadRequest("Invalid cursor"))
    else
      match ParseId(StringToNumber(parts[1]), "cursor destinationId")
      case Err(e) => Err(e)
      case Ok(id) =>
        if parts[0] == "" then Err(BadRequest("Invalid cursor"))
        else Ok(Cursor(parts[0], id))
  }

  /** A decoded cursor text is its timestamp part, a `|`, and a text whose number is the id. */
  lemma ParseCursorTextReconstructs(text: string)
    requires ParseCursorText(text).Ok?
    ensures var c := ParseCursorText(text).value;
      exists idText: string {:trigger StringToNumber(idText)} ::
        text == c.createdAt + "|" + idText && StringToNumber(idText) == Finite(c.destinationId as real)
  {
    var parts := Split(text, '|');
    JoinSplit(text, '|');
    assert Join(parts, '|') == parts[0] + "|" + Join(parts[1..], '|');
    assert StringToNumber(parts[1]) == Finite(ParseCursorText(text).value.destinationId as real);
  }

  /**
   * Decodes a cursor query parameter. A falsy value means "first page" and is
   * not an error; any other non-string is rejected; a string is decoded by
   * ParseCursorText.
   */
  function ParseCursor(v: Json): (r: Result<Option<Cursor>, HttpError>)
    ensures Falsy(v) <==> r == Ok(None)
    ensures !Falsy(v) && !v.JStr? ==> r == Err(BadRequest("Invalid cursor"))
    ensures r.Err? ==>
      r.error == BadRequest("Invalid cursor") || r.error == BadRequest("Invalid cursor destinationId")
    ensures r.Ok? && r.value.Some? ==> v.JStr? && ParseCursorText(v.s) == Ok(r.value.value)
    ensures !Falsy(v) && v.JStr? ==>
      && (r.Ok? <==> ParseCursorText(v.s).Ok?)
      && (r.Err? ==> r.error == ParseCursorText(v.s).error)
  {
    if Falsy(v) then Ok(None)
    else if !v.JStr? then Err(BadRequest("Invalid cursor"))
    else
      match ParseCursorText(v.s)
      case Err(e) => Err(e)
      case Ok(c) => Ok(Some(c))
  }

  /**
   * The id part is checked before the timestamp part: a cursor with an empty
   * timestamp and a bad id is refused for its id.
   */
  lemma CursorIdCheckedFirst(idText: string)
    requires '|' !in idText && !IsPositiveId(StringToNumber(idText))
    ensures ParseCursor(JStr("|" + idText)) == Err(BadRequest("Invalid cursor destinationId"))
  {
    SplitPair("", idText, '|');
    assert "" + "|" + idText == "|" + idText;
  }

  /** A well-formed cursor string decodes to its own two parts. */
  lemma ParseCursorOfPair(ts: string, id: nat)
    requires ts != "" && '|' !in ts && id > 0
    ensures ParseCursor(JStr(ts + "|" + NatToString(id))) == Ok(Some(Cursor(ts, id)))
    ensures ParseCursorText(ts + "|" + NatToString(id)) == Ok(Cursor(ts, id))
  {
    var digits := NatToString(id);
    NonDigitAbsent(digits, '|');
    SplitPair(ts, digits, '|');
    StringToNumberOfNat(id);
  }
}

=== FILE: constants.dfy ===
/** The allow-lists and limits of the configuration module. */
module Constants {

  const ObjectTypes: set<string> := {"user", "post", "page", "checkin", "place", "comment"}

  const AssociationTypes: set<string> :=
    {"friend", "like", "follow", "authored", "tagged_in", "located_at", "has_comment"}

  /** Largest page size a listing may ask for. */
  const MaxListLimit: nat := 100

  /** Page size of a listing that names none. */
  const DefaultListLimit: nat := 20
}

=== FILE: controller_lemmas.dfy ===
/** Properties of request sequences, stated over the handlers. */
module ControllerLemmas {
  import opened Wrappers
  import opened Js
  import opened Decimal
  import opened Schema
  import opened Http
  import opened CommonValidators
  import opened AssociationValidators
  import opened ObjectValidators
  import opened AssociationService
  import opened AssociationController
  import opened ObjectService
  import opened ObjectController
  import Constants

  /** A JSON body naming an edge by numeric ids. */
  function EdgeBody(s: nat, d: nat, t: string): Json {
    JObj(map["sourceId" := JNum(s as real), "destinationId" := JNum(d as real), "associationType" := JStr(t)])
  }

  /** An update body for an edge that sets only its status. */
  function StatusBody(s: nat, d: nat, t: string, status: int): Json {
    JObj(map["sourceId" := JNum(s as real), "destinationId" := JNum(d as real), "associationType" := JStr(t),
             "status" := JNum(status as real)])
  }

  /**
   * Valid ids and an allow-listed type pass the edge checks, both as
   * numbers in a body and as decimal text in a path.
   */
  lemma EdgeValidates(s: nat, d: nat, t: string)
    requires s > 0 && d > 0 && t in Constants.AssociationTypes
    ensures ValidateEdge(JNum(s as real), JNum(d as real), JStr(t)) == Ok(EdgeRef(s, d, t))
    ensures ValidateEdge(JStr(NatToString(s)), JStr(NatToString(d)), JStr(t)) == Ok(EdgeRef(s, d, t))
  {
    StringToNumberOfNat(s);
    StringToNumberOfNat(d);
  }

  /** Creating the same edge twice: the second request is a 409 and changes nothing. */
  lemma DuplicateCreateConflicts(st: Store, body: Json, now: nat, later: nat)
    requires CreateAssociationHandler(st, body, now).1.Ok?
    ensures var st1 := CreateAssociationHandler(st, body, now).0;
      CreateAssociationHandler(st1, body, later) == (st1, Err(Conflict("Association already exists")))
  {
  }

  /**
   * Soft delete keeps the row, so after create and delete the same edge
   * cannot be created again: the primary key still holds the triple.
   */
  lemma RecreateAfterDeleteConflicts(st: Store, body: Json, now: nat, later: nat)
    requires CreateAssociationHandler(st, body, now).1.Ok?
    ensures var st1 := CreateAssociationHandler(st, body, now).0;
      var (st2, deleted) := DeleteAssociationHandler(st1, body);
      && deleted == Ok(SuccessReply)
      && CreateAssociationHandler(st2, body, later) == (st2, Err(Conflict("Association already exists")))
  {
    var v := ValidateCreate(body);
    assert v.Ok?;
    var edge := v.value.edge;
    assert ValidateEdge(Field(body, "sourceId"), Field(body, "destinationId"), Field(body, "associationType")) == Ok(edge);
  }

  /** After a delete, reading the edge by its path is a 404, like an absent edge. */
  lemma DeleteThenGetNotFound(st: Store, s: nat, d: nat, t: string)
    requires s > 0 && d > 0 && t in Constants.AssociationTypes
    requires AssocKey(s, t, d) in st.assocs
    ensures var (st1, r) := DeleteAssociationHandler(st, EdgeBody(s, d, t));
      && r == Ok(SuccessReply)
      && GetAssociationHandler(st1.assocs, NatToString(s), t, NatToString(d)) == Err(NotFound("Association not found"))
  {
    EdgeValidates(s, d, t);
  }

  /** Deleting an edge twice succeeds both times: the second finds the triple still there. */
  lemma DeleteTwiceSucceeds(st: Store, s: nat, d: nat, t: string)
    requires s > 0 && d > 0 && t in Constants.AssociationTypes
    requires AssocKey(s, t, d) in st.assocs
    ensures var st1 := DeleteAssociationHandler(st, EdgeBody(s, d, t)).0;
      DeleteAssociationHandler(st1, EdgeBody(s, d, t)).1 == Ok(SuccessReply)
  {
    EdgeValidates(s, d, t);
  }

  /** A status-only body validates to an update of that status alone. */
  lemma StatusBodyValidates(s: nat, d: nat, t: string)
    requires s > 0 && d > 0 && t in Constants.AssociationTypes
    ensures ValidateUpdate(StatusBody(s, d, t, Active)) == Ok(UpdateRequest(EdgeRef(s, d, t), None, Some(Active)))
  {
    EdgeValidates(s, d, t);
    var body := StatusBody(s, d, t, Active);
    assert Field(body, "data") == JUndefined;
    assert ParseAssociationStatus(OptionalNumber(Field(body, "status"))) == Ok(Some(Active));
  }

  /** An update that sets status 1 restores a soft-deleted edge: it reads back again. */
  lemma RestoreByUpdate(st: Store, s: nat, d: nat, t: string)
    requires s > 0 && d > 0 && t in Constants.AssociationTypes
    requires AssocKey(s, t, d) in st.assocs
    ensures var st1 := DeleteAssociationHandler(st, EdgeBody(s, d, t)).0;
      var (st2, r) := UpdateAssociationHandler(st1, StatusBody(s, d, t, Active));
      && r == Ok(SuccessReply)
      && GetAssociationHandler(st2.assocs, NatToString(s), t, NatToString(d)).Ok?
  {
    EdgeValidates(s, d, t);
    var st1 := DeleteAssociationHandler(st, EdgeBody(s, d, t)).0;
    assert AssocKey(s, t, d) in st1.assocs;
    StatusBodyValidates(s, d, t);
    var st2 := UpdateAssociationHandler(st1, StatusBody(s, d, t, Active)).0;
    assert st2.assocs[AssocKey(s, t, d)].status == Active;
  }

  /** In a valid store every stored type is one the create check admits, unchanged. */
  lemma StoredTypesAdmitted(st: Store, id: nat)
    requires Valid(st) && id in st.objects
    ensures ValidateObjectType(JStr(st.objects[id].objectType)) == Ok(st.objects[id].objectType)
  {
  }

  /** An object just created is named by no edge: ids are never reused. */
  lemma FreshObjectHasNoEdges(st: Store, body: Json, now: nat, t: string)
    requires Valid(st)
    requires CreateObjectHandler(st, body, now).1.Ok?
    ensures var st1 := CreateObjectHandler(st, body, now).0;
      && (forall k :: k in st1.assocs ==> k.sourceId != st.nextId && k.destinationId != st.nextId)
      && CountAssociations(st1.assocs, st.nextId, t) == 0
  {
    var st1 := CreateObjectHandler(st, body, now).0;
    assert ActiveKeys(st1.assocs, st.nextId, t) == {};
  }

  /** An edge between two existing objects that is not yet stored is created. */
  lemma CreateEdgeSucceeds(st: Store, s: nat, d: nat, t: string, now: nat)
    requires s > 0 && d > 0 && t in Constants.AssociationTypes
    requires s in st.objects && d in st.objects && AssocKey(s, t, d) !in st.assocs
    ensures CreateAssociationHandler(st, EdgeBody(s, d, t), now).1 == Ok(SuccessReply)
  {
    var body := EdgeBody(s, d, t);
    EdgeValidates(s, d, t);
    assert Field(body, "data") == JUndefined;
    assert ValidateCreate(body) == Ok(CreateRequest(EdgeRef(s, d, t), JUndefined));
  }

  /** Two objects created in a row can be linked by any allow-listed edge type. */
  lemma LinkNewObjects(st: Store, b1: Json, b2: Json, t: string, now: nat)
    requires Valid(st)
    requires t in Constants.AssociationTypes
    requires CreateObjectHandler(st, b1, now).1.Ok?
    requires CreateObjectHandler(CreateObjectHandler(st, b1, now).0, b2, now).1.Ok?
    ensures var st1 := CreateObjectHandler(st, b1, now).0;
      var st2 := CreateObjectHandler(st1, b2, now).0;
      CreateAssociationHandler(st2, EdgeBody(st.nextId, st1.nextId, t), now).1 == Ok(SuccessReply)
  {
    var st1 := CreateObjectHandler(st, b1, now).0;
    var st2 := CreateObjectHandler(st1, b2, now).0;
    assert Valid(st1) && st.nextId in st1.objects;
    assert st2.assocs == st.assocs;
    assert st.nextId in st2.objects && st1.nextId in st2.objects;
    assert AssocKey(st.nextId, t, st1.nextId) !in st2.assocs;
    CreateEdgeSucceeds(st2, st.nextId, st1.nextId, t, now);
  }
}

=== FILE: decimal.dfy ===
/** Decimal rendering and parsing of natural numbers (template literals and `Number(str)`). */
module Decimal {
  import opened Wrappers
  import opened Js

  predicate IsDigit(c: char) {
    '0' <= c <= '9'
  }

  predicate AllDigits(s: string) {
    forall i :: 0 <= i < |s| ==> IsDigit(s[i])
  }

  function DigitChar(d: nat): (c: char)
    requires d < 10
    ensures IsDigit(c)
  {
    ('0' as int + d) as char
  }

  function DigitValue(c: char): (d: nat)
    requires IsDigit(c)
    ensures d < 10
  {
    c as int - '0' as int
  }

  /** The decimal text of `n`, as `${n}` renders it. */
  function NatToString(n: nat): (s: string)
    ensures |s| > 0 && AllDigits(s)
  {
    if n < 10 then [DigitChar(n)] else NatToString(n / 10) + [DigitChar(n % 10)]
  }

  /** The text of a signed integer, with a leading '-' when negative. */
  function IntToString(i: int): (s: string)
    ensures i >= 0 ==> s == NatToString(i)
  {
    if i < 0 then "-" + NatToString(-i) else NatToString(i)
  }

  /** A character that is not a digit does not occur in a string of digits. */
  lemma NonDigitAbsent(s: string, c: char)
    requires AllDigits(s) && !IsDigit(c)
    ensures c !in s
  {
  }

  /** The value of a string of decimal digits, read most significant first. */
  function DigitsValue(s: string): nat
    requires AllDigits(s)
  {
    if |s| == 0 then 0 else 10 * DigitsValue(s[..|s| - 1]) + DigitValue(s[|s| - 1])
  }

  /** A non-empty string of decimal digits and its value; anything else is None. */
  function ParseNat(s: string): Option<nat> {
    if |s| > 0 && AllDigits(s) then Some(DigitsValue(s)) else None
  }

  /**
   * `Number(s)` on the strings distinguished here: the empty string is
   * 0, a string of decimal digits is its value, and every other string is NaN.
   */
  function StringToNumber(s: string): (r: JsNumber)
    ensures r.Finite? ==> IsInteger(r.value) && r.value >= 0.0
  {
    if s == "" then Finite(0.0)
    else match ParseNat(s)
      case Some(n) => Finite(n as real)
      case None => NonFinite
  }

  lemma {:induction false} DigitsValueOfNatToString(n: nat)
    ensures DigitsValue(NatToString(n)) == n
    decreases n
  {
    if n >= 10 {
      var s := NatToString(n);
      var p := NatToString(n / 10);
      assert s == p + [DigitChar(n % 10)];
      assert s[..|s| - 1] == p;
      DigitsValueOfNatToString(n / 10);
    }
  }

  /** Parsing inverts rendering. */
  lemma ParseNatToString(n: nat)
    ensures ParseNat(NatToString(n)) == Some(n)
  {
    DigitsValueOfNatToString(n);
  }

  /** Rendering is injective: distinct numbers have distinct texts. */
  lemma NatToStringInjective(m: nat, n: nat)
    ensures NatToString(m) == NatToString(n) ==> m == n
  {
    ParseNatToString(m);
    ParseNatToString(n);
  }

  /** `Number(String(n))` is `n` again. */
  lemma StringToNumberOfNat(n: nat)
    ensures StringToNumber(NatToString(n)) == Finite(n as real)
  {
    ParseNatToString(n);
  }

  /**
   * `Number(v)` on a request value: undefined is NaN, null and false are 0,
   * true is 1, a string goes through `StringToNumber`, an object is NaN, and
   * an array is read through its text (`String([])` is empty, a
   * one-element array reads as its element, a longer one contains a comma).
   */
  function ToNumber(v: Json): (r: JsNumber)
    ensures v.JNum? ==> r == Finite(v.n)
    ensures v.JStr? ==> r == StringToNumber(v.s)
  {
    match v
    case JUndefined => NonFinite
    case JNull => Finite(0.0)
    case JBool(b) => Finite(if b then 1.0 else 0.0)
    case JNum(n) => Finite(n)
    case JStr(s) => StringToNumber(s)
    case JObj(_) => NonFinite
    case JArr(items) =>
      if |items| == 0 then Finite(0.0)
      else if |items| > 1 then NonFinite
      else match items[0]
        case JUndefined => Finite(0.0)
        case JNull => Finite(0.0)
        case JBool(_) => NonFinite
        case _ => ToNumber(items[0])
  }
}

=== FILE: http.dfy ===
/** Handler outcomes: a JSON reply, or an HTTP error with status and message. */
module Http {
  import opened Wrappers
  import opened Schema

  datatype HttpError = HttpError(status: nat, message: string)

  function BadRequest(message: string): HttpError {
    HttpError(400, message)
  }

  function NotFound(message: string): HttpError {
    HttpError(404, message)
  }

  function Conflict(message: string): HttpError {
    HttpError(409, message)
  }

  /** The bodies the handlers send with status 200. */
  datatype Reply =
    | SuccessReply
    | AssociationReply(association: AssocRecord)
    | PageReply(page: Page)
    | CountReply(count: nat)
    | CreatedObjectReply(id: nat, objectType: string)
    | ObjectReply(obj: ObjectRecord)

  type Response = Result<Reply, HttpError>
}

=== FILE: js.dfy ===
/**
 * JavaScript values as they reach the validators: JSON request bodies and
 * query parameters, plus the result of the `Number(...)` coercion.
 */
module Js {

  /** A JSON/JavaScript value. `JNum` holds finite numbers only (JSON has no NaN). */
  datatype Json =
    | JUndefined
    | JNull
    | JBool(b: bool)
    | JNum(n: real)
    | JStr(s: string)
    | JArr(items: seq<Json>)
    | JObj(fields: map<string, Json>)

  /** The value of `Number(x)`: a finite number, or NaN / an infinity. */
  datatype JsNumber = Finite(value: real) | NonFinite

  /** JavaScript falsiness (`!v`) of a value. */
  predicate Falsy(v: Json) {
    v.JUndefined? || v.JNull? || v == JBool(false) || v == JNum(0.0) || v == JStr("")
  }

  /** `Number.isInteger` on a finite number. */
  predicate IsInteger(r: real) {
    r.Floor as real == r
  }

  /** `Number.isInteger(v) && v > 0` on a raw JSON value (no coercion). */
  predicate IsPositiveInteger(v: Json) {
    v.JNum? && IsInteger(v.n) && v.n > 0.0
  }

  /** Property access `v.name`; a missing property reads as undefined. */
  function Field(v: Json, name: string): Json {
    if v.JObj? && name in v.fields then v.fields[name] else JUndefined
  }

  /** A value that is neither null, nor an array, nor a primitive. */
  predicate IsPlainObject(v: Json) {
    v.JObj?
  }

  /**
   * The characters `String.prototype.trim` removes: the ECMAScript
   * WhiteSpace (TAB, VT, FF, SP, NBSP, ZWNBSP and every Zs character) and
   * LineTerminator (LF, CR, LS, PS) code points.
   */
  predicate IsWhitespace(c: char) {
    c == '\t' || c == '\n' || c == '\U{000B}' || c == '\U{000C}' || c == '\r' || c == ' '
    || c == '\U{00A0}' || c == '\U{1680}' || ('\U{2000}' <= c <= '\U{200A}')
    || c == '\U{2028}' || c == '\U{2029}' || c == '\U{202F}' || c == '\U{205F}'
    || c == '\U{3000}' || c == '\U{FEFF}'
  }

  /** `s.trim() === ''`. */
  predicate IsBlank(s: string) {
    forall i :: 0 <= i < |s| ==> IsWhitespace(s[i])
  }

  /** `typeof v === 'string' && v.trim() !== ''`. */
  predicate IsNonBlankString(v: Json) {
    v.JStr? && !IsBlank(v.s)
  }

  /** `v === undefined || typeof v === 'string'`. */
  predicate IsOptionalString(v: Json) {
    v.JUndefined? || v.JStr?
  }

  /** The stored payload `data || {}`. */
  function OrEmptyObject(v: Json): (r: Json)
    ensures !Falsy(v) ==> r == v
    ensures Falsy(v) ==> r == JObj(map[])
  {
    if Falsy(v) then JObj(map[]) else v
  }
}

=== FILE: object_controller.dfy ===
/**
 * The object handlers: validate, call the entity store, and map a missing
 * row to a 404. A handler that answers with an error leaves the store as it
 * was.
 */
module ObjectController {
  import opened Wrappers
  import opened Js
  import opened Decimal
  import opened Schema
  import opened Http
  import opened CommonValidators
  import opened ObjectValidators
  import opened ObjectService

  /**
   * Creates an object: the type first, then the payload against that type's
   * rules; on success the store assigns a fresh id and the reply carries it
   * with the type.
   */
  function CreateObjectHandler(st: Store, body: Json, now: nat): (res: (Store, Response))
    ensures res.0.assocs == st.assocs && res.0.cache == st.cache
    ensures res.1.Err? ==> res.0 == st
    ensures res.0.nextId >= st.nextId
    ensures forall i :: i in st.objects ==> i in res.0.objects
    ensures Valid(st) ==> Valid(res.0)
    ensures var t := ValidateObjectType(Field(body, "objectType"));
      && (t.Err? ==> res.1 == Err(t.error))
      && (t.Ok? ==> var d := ValidateObjectData(t.value, Field(body, "data"));
          && (d.Err? ==> res.1 == Err(d.error))
          && (d.Ok? ==>
                && res.1 == Ok(CreatedObjectReply(st.nextId, t.value))
                && res.0 == CreateObject(st, t.value, Field(body, "data"), now).0
                && st.nextId in res.0.objects
                && res.0.objects[st.nextId] == ObjectRow(t.value, Field(body, "data"), now, now)
                && (Valid(st) ==> st.nextId !in st.objects)))
  {
    match ValidateObjectType(Field(body, "objectType"))
    case Err(e) => (st, Err(e))
    case Ok(objectType) =>
      match ValidateObjectData(objectType, Field(body, "data"))
      case Err(e) => (st, Err(e))
      case Ok(data) =>
        var (st', id) := CreateObject(st, objectType, data, now);
        (st', Ok(CreatedObjectReply(id, objectType)))
  }

  /** Reads an object by the id in the path; no such row is a 404. */
  function GetObjectHandler(objects: map<nat, ObjectRow>, id: string): (r: Response)
    ensures var p := ParseId(ToNumber(JStr(id)), "id");
      && (p.Err? ==> r == Err(BadRequest("Invalid id")))
      && (p.Ok? ==>
          && (r.Ok? <==> p.value in objects)
          && (r.Ok? ==> r.value == ObjectReply(ObjectRecord(p.value, objects[p.value])))
          && (r.Err? ==> r.error == NotFound("Object not found")))
  {
    assert "Invalid " + "id" == "Invalid id";
    match ParseId(ToNumber(JStr(id)), "id")
    case Err(e) => Err(e)
    case Ok(n) =>
      match GetObjectById(objects, n)
      case None => Err(NotFound("Object not found"))
      case Some(rec) => Ok(ObjectReply(rec))
  }

  /**
   * Replaces an object's payload. A missing object is a 404 before the
   * payload is looked at; the payload is then checked against the STORED
   * type (the request cannot change it).
   */
  function UpdateObjectHandler(st: Store, id: string, body: Json, now: nat): (res: (Store, Response))
    ensures res.0.assocs == st.assocs && res.0.cache == st.cache && res.0.nextId == st.nextId
    ensures res.1.Err? ==> res.0 == st
    ensures Valid(st) ==> Valid(res.0)
    ensures var p := ParseId(ToNumber(JStr(id)), "id");
      && (p.Err? ==> res.1 == Err(BadRequest("Invalid id")))
      && (p.Ok? && p.value !in st.objects ==> res.1 == Err(NotFound("Object not found")))
      && (p.Ok? && p.value in st.objects ==>
          var d := ValidateObjectData(st.objects[p.value].objectType, Field(body, "data"));
          && (d.Err? ==> res.1 == Err(d.error))
          && (d.Ok? ==>
                && res.1 == Ok(SuccessReply)
                && res.0 == UpdateObject(st, p.value, Field(body, "data"), now).0))
  {
    assert "Invalid " + "id" == "Invalid id";
    match ParseId(ToNumber(JStr(id)), "id")
    case Err(e) => (st, Err(e))
    case Ok(n) =>
      match GetObjectById(st.objects, n)
      case None => (st, Err(NotFound("Object not found")))
      case Some(existing) =>
        match ValidateObjectData(existing.row.objectType, Field(body, "data"))
        case Err(e) => (st, Err(e))
        case Ok(_) =>
          var (st', updated) := UpdateObject(st, n, Field(body, "data"), now);
          if !updated then (st, Err(NotFound("Object not found")))
          else (st', Ok(SuccessReply))
  }

  /** Deletes an object by the id in the path; no such row is a 404. */
  function DeleteObjectHandler(st: Store, id: string): (res: (Store, Response))
    ensures res.0.assocs == st.assocs && res.0.cache == st.cache && res.0.nextId == st.nextId
    ensures res.1.Err? ==> res.0 == st
    ensures Valid(st) ==> Valid(res.0)
    ensures var p := ParseId(ToNumber(JStr(id)), "id");
      && (p.Err? ==> res.1 == Err(BadRequest("Invalid id")))
      && (p.Ok? ==>
          && (res.1.Ok? <==> p.value in st.objects)
          && (res.1.Ok? ==> res.1.value == SuccessReply && res.0 == DeleteObject(st, p.value).0)
          && (res.1.Err? ==> res.1.error == NotFound("Object not found")))
  {
    assert "Invalid " + "id" == "Invalid id";
    match ParseId(ToNumber(JStr(id)), "id")
    case Err(e) => (st, Err(e))
    case Ok(n) =>
      var (st', deleted) := DeleteObject(st, n);
      if !deleted then (st, Err(NotFound("Object not found")))
      else (st', Ok(SuccessReply))
  }
}

=== FILE: object_service.dfy ===
/**
 * The entity store: create, read, update and delete rows of the `objects`
 * table. Ids come from the AUTO_INCREMENT counter; the database clock is the
 * parameter `now`.
 */
module ObjectService {
  import opened Wrappers
  import opened Js
  import opened Schema
  import Constants

  /** The row a create inserts: the payload `data || {}`, both timestamps now. */
  function NewRow(objectType: string, data: Json, now: nat): ObjectRow {
    ObjectRow(objectType, OrEmptyObject(data), now, now)
  }

  /**
   * Inserts an object with the next AUTO_INCREMENT id and returns that id;
   * the counter then moves past it. In a valid store the id was never used
   * before, and the store stays valid when the type is allow-listed; every
   * other object is untouched, and associations and cached pages are not
   * affected.
   */
  function CreateObject(st: Store, objectType: string, data: Json, now: nat): (res: (Store, nat))
    ensures var (st', id) := res;
      && (Valid(st) ==> id !in st.objects && id >= 1)
      && (Valid(st) ==> (Valid(st') <==> objectType in Constants.ObjectTypes))
      && id in st'.objects && st'.objects[id] == NewRow(objectType, data, now)
      && (forall i :: i != id ==> (i in st'.objects <==> i in st.objects))
      && (forall i :: i in st.objects && i != id ==> st'.objects[i] == st.objects[i])
      && id == st.nextId && st'.nextId == id + 1
      && st'.assocs == st.assocs && st'.cache == st.cache
  {
    var id := st.nextId;
    (st.(objects := st.objects[id := NewRow(objectType, data, now)], nextId := id + 1), id)
  }

  /** Reads one object by id: the row and its id, or None when no such row exists. */
  function GetObjectById(objects: map<nat, ObjectRow>, id: nat): (r: Option<ObjectRecord>)
    ensures r.Some? <==> id in objects
    ensures r.Some? ==> r.value.id == id && r.value.row == objects[id]
  {
    if id in objects then Some(ObjectRecord(id, objects[id])) else None
  }

  /**
   * Replaces the payload of an existing object with `data || {}` and reports
   * whether the id exists. The type and creation time never change;
   * `updated_at` moves to now only when the stored payload actually changes
   * (ON UPDATE CURRENT_TIMESTAMP).
   */
  function UpdateObject(st: Store, id: nat, data: Json, now: nat): (res: (Store, bool))
    ensures res.1 <==> id in st.objects
    ensures !res.1 ==> res.0 == st
    ensures res.1 ==>
      var prev := st.objects[id];
      && id in res.0.objects
      && res.0.objects[id].objectType == prev.objectType
      && res.0.objects[id].createdAt == prev.createdAt
      && res.0.objects[id].data == OrEmptyObject(data)
      && (res.0.objects[id].updatedAt == now || res.0.objects[id].updatedAt == prev.updatedAt)
      && (res.0.objects[id].updatedAt != prev.updatedAt ==> prev.data != OrEmptyObject(data))
    ensures forall i :: i != id ==> (i in res.0.objects <==> i in st.objects)
    ensures forall i :: i != id && i in st.objects ==> res.0.objects[i] == st.objects[i]
    ensures res.0.nextId == st.nextId && res.0.assocs == st.assocs && res.0.cache == st.cache
  {
    if id !in st.objects then (st, false)
    else
      var prev := st.objects[id];
      var stored := OrEmptyObject(data);
      if stored == prev.data then (st, true)
      else (st.(objects := st.objects[id := prev.(data := stored, updatedAt := now)]), true)
  }

  /**
   * Removes an object and reports whether it existed. Its associations and
   * the cached pages that list it are left in place.
   */
  function DeleteObject(st: Store, id: nat): (res: (Store, bool))
    ensures res.1 <==> id in st.objects
    ensures id !in res.0.objects
    ensures forall i :: i != id ==> (i in res.0.objects <==> i in st.objects)
    ensures forall i :: i in res.0.objects ==> res.0.objects[i] == st.objects[i]
    ensures res.0.nextId == st.nextId && res.0.assocs == st.assocs && res.0.cache == st.cache
  {
    if id in st.objects then (st.(objects := st.objects - {id}), true) else (st, false)
  }

  /** A created object reads back with its type, payload `data || {}` and creation time. */
  lemma CreateThenGetObject(st: Store, objectType: string, data: Json, now: nat)
    ensures var (st', id) := CreateObject(st, objectType, data, now);
      GetObjectById(st'.objects, id) == Some(ObjectRecord(id, ObjectRow(objectType, OrEmptyObject(data), now, now)))
  {
  }

  /** Deleting twice: the second delete finds nothing and changes nothing. */
  lemma DeleteTwice(st: Store, id: nat)
    ensures var st1 := DeleteObject(st, id).0;
      DeleteObject(st1, id) == (st1, false)
  {
  }

  /** A deleted object is gone: reads and updates of it report absence. */
  lemma DeletedObjectIsAbsent(st: Store, id: nat, data: Json, now: nat)
    ensures var st1 := DeleteObject(st, id).0;
      && GetObjectById(st1.objects, id).None?
      && UpdateObject(st1, id, data, now) == (st1, false)
  {
  }

  /**
   * Ids are never reused: once an object has been created, any later create,
   * in a store whose counter has not gone back (after deletes or any other
   * requests), gets an id above that object's id and above every id that
   * existed before it.
   */
  lemma IdsNeverReused(st: Store, t1: string, d1: Json, now: nat, later: Store, t2: string, d2: Json, now2: nat)
    requires Valid(st)
    requires later.nextId >= CreateObject(st, t1, d1, now).0.nextId
    ensures var id1 := CreateObject(st, t1, d1, now).1;
      var id2 := CreateObject(later, t2, d2, now2).1;
      && id2 > id1
      && (forall i :: i in st.objects ==> i < id1 < id2)
  {
  }

  /** The case of a create right after deleting the previous object. */
  lemma CreateAfterDeleteIsFresh(st: Store, t1: string, d1: Json, t2: string, d2: Json, now: nat)
    requires Valid(st)
    ensures var (st1, id1) := CreateObject(st, t1, d1, now);
      var st2 := DeleteObject(st1, id1).0;
      && (t1 in Constants.ObjectTypes ==> Valid(st2))
      && CreateObject(st2, t2, d2, now).1 > id1
  {
    var (st1, id1) := CreateObject(st, t1, d1, now);
    IdsNeverReused(st, t1, d1, now, DeleteObject(st1, id1).0, t2, d2, now);
  }

  /** Updating with the payload already stored changes nothing, not even `updated_at`. */
  lemma UpdateIdempotent(st: Store, id: nat, data: Json, now: nat, later: nat)
    ensures var st1 := UpdateObject(st, id, data, now).0;
      UpdateObject(st1, id, data, later) == (st1, id in st.objects)
  {
  }
}

=== FILE: object_validators.dfy ===
/** Validation of object types and of each type's payload. */
module ObjectValidators {
  import opened Wrappers
  import opened Js
  import opened Http
  import Constants

  /** An object type: accepted exactly when it is an allow-listed string. */
  function ValidateObjectType(v: Json): (r: Result<string, HttpError>)
    ensures r.Ok? <==> v.JStr? && v.s in Constants.ObjectTypes
    ensures r.Ok? ==> r.value == v.s
    ensures r.Err? ==> r.error == BadRequest("Invalid objectType")
  {
    if v.JStr? && v.s in Constants.ObjectTypes then Ok(v.s)
    else Err(BadRequest("Invalid objectType"))
  }

  /** One check a payload field must pass. */
  datatype Rule =
    | NonBlankString(field: string)   // a string whose trim() is not empty
    | PositiveInteger(field: string)  // Number.isInteger and > 0, without coercion
    | OptionalString(field: string)   // absent, or a string

  predicate Holds(rule: Rule, payload: Json) {
    match rule
    case NonBlankString(f) => IsNonBlankString(Field(payload, f))
    case PositiveInteger(f) => IsPositiveInteger(Field(payload, f))
    case OptionalString(f) => IsOptionalString(Field(payload, f))
  }

  function RuleError(rule: Rule): HttpError {
    match rule
    case NonBlankString(f) => BadRequest("Missing or invalid data." + f)
    case PositiveInteger(f) => BadRequest("Missing or invalid data." + f)
    case OptionalString(f) => BadRequest("Invalid data." + f)
  }

  /** The checks of each object type, in the order they are made. */
  function Rules(objectType: string): seq<Rule> {
    if objectType == "user" then [NonBlankString("name"), NonBlankString("username")]
    else if objectType == "post" then [PositiveInteger("authorId"), NonBlankString("body")]
    else if objectType == "page" then [NonBlankString("title")]
    else if objectType == "checkin" then
      [PositiveInteger("userId"), PositiveInteger("placeId"), OptionalString("caption")]
    else if objectType == "place" then [NonBlankString("name"), OptionalString("city")]
    else if objectType == "comment" then [PositiveInteger("authorId"), NonBlankString("body")]
    else []
  }

  /** Rule `i` is the first of `rules` that the payload fails. */
  predicate IsFirstFailure(rules: seq<Rule>, payload: Json, i: int) {
    && 0 <= i < |rules|
    && !Holds(rules[i], payload)
    && (forall j :: 0 <= j < i ==> Holds(rules[j], payload))
  }

  /** The error of the first rule the payload fails, or None if it passes them all. */
  function FirstFailure(rules: seq<Rule>, payload: Json): (r: Option<HttpError>)
    ensures r.None? <==> forall i :: 0 <= i < |rules| ==> Holds(rules[i], payload)
    ensures r.Some? ==> exists i :: IsFirstFailure(rules, payload, i) && r.value == RuleError(rules[i])
  {
    if |rules| == 0 then None
    else if !Holds(rules[0], payload) then Some(RuleError(rules[0]))
    else
      var rest := FirstFailure(rules[1..], payload);
      assert forall i :: 1 <= i < |rules| ==> rules[i] == rules[1..][i - 1];
      if rest.Some? then
        var k :| IsFirstFailure(rules[1..], payload, k) && rest.value == RuleError(rules[1..][k]);
        assert IsFirstFailure(rules, payload, k + 1);
        rest
      else rest
  }

  /**
   * Validates an object payload: it must be a plain object, and the first
   * failing rule of its type, in source order, decides the error. On success
   * the payload is returned unchanged.
   */
  function ValidateObjectData(objectType: string, data: Json): (r: Result<Json, HttpError>)
    ensures !IsPlainObject(data) ==> r == Err(BadRequest("Invalid data"))
    ensures r.Ok? <==> IsPlainObject(data) && forall i :: 0 <= i < |Rules(objectType)| ==> Holds(Rules(objectType)[i], data)
    ensures r.Ok? ==> r.value == data
    ensures IsPlainObject(data) && r.Err? ==>
      exists i :: IsFirstFailure(Rules(objectType), data, i) && r.error == RuleError(Rules(objectType)[i])
  {
    if !data.JObj? then Err(BadRequest("Invalid data"))
    else match FirstFailure(Rules(objectType), data)
      case None => Ok(data)
      case Some(e) => Err(e)
  }

  lemma AllHoldPair(rules: seq<Rule>, payload: Json)
    requires |rules| == 2
    ensures (forall i :: 0 <= i < |rules| ==> Holds(rules[i], payload)) <==>
      Holds(rules[0], payload) && Holds(rules[1], payload)
  {
  }

  /** A user needs a non-blank name and username. */
  lemma UserPayload(data: Json)
    ensures ValidateObjectData("user", data).Ok? <==>
      IsPlainObject(data) && IsNonBlankString(Field(data, "name")) && IsNonBlankString(Field(data, "username"))
  {
    AllHoldPair(Rules("user"), data);
  }

  /** A post and a comment need a positive-integer authorId and a non-blank body. */
  lemma PostAndCommentPayload(objectType: string, data: Json)
    requires objectType == "post" || objectType == "comment"
    ensures ValidateObjectData(objectType, data).Ok? <==>
      IsPlainObject(data) && IsPositiveInteger(Field(data, "authorId")) && IsNonBlankString(Field(data, "body"))
  {
    AllHoldPair(Rules(objectType), data);
  }

  /** A page needs a non-blank title. */
  lemma PagePayload(data: Json)
    ensures ValidateObjectData("page", data).Ok? <==>
      IsPlainObject(data) && IsNonBlankString(Field(data, "title"))
  {
    var rs := Rules("page");
    assert (forall i :: 0 <= i < |rs| ==> Holds(rs[i], data)) <==> Holds(rs[0], data);
  }

  /** A place needs a non-blank name; its city, if present, must be a string. */
  lemma PlacePayload(data: Json)
    ensures ValidateObjectData("place", data).Ok? <==>
      IsPlainObject(data) && IsNonBlankString(Field(data, "name")) && IsOptionalString(Field(data, "city"))
  {
    AllHoldPair(Rules("place"), data);
  }

  /** A checkin needs positive-integer userId and placeId; its caption, if present, must be a string. */
  lemma CheckinPayload(data: Json)
    ensures ValidateObjectData("checkin", data).Ok? <==>
      && IsPlainObject(data)
      && IsPositiveInteger(Field(data, "userId"))
      && IsPositiveInteger(Field(data, "placeId"))
      && IsOptionalString(Field(data, "caption"))
  {
    var rs := Rules("checkin");
    assert (forall i :: 0 <= i < |rs| ==> Holds(rs[i], data)) <==>
      Holds(rs[0], data) && Holds(rs[1], data) && Holds(rs[2], data);
  }

  /** Source order decides the error: a user missing both names is told about the name. */
  lemma UserNameCheckedFirst(data: Json)
    requires IsPlainObject(data) && !IsNonBlankString(Field(data, "name"))
    ensures ValidateObjectData("user", data) == Err(BadRequest("Missing or invalid data.name"))
  {
    var rs := Rules("user");
    assert rs[0] == NonBlankString("name") && !Holds(rs[0], data);
    assert FirstFailure(rs, data) == Some(RuleError(rs[0]));
    assert "Missing or invalid data." + "name" == "Missing or invalid data.name";
  }
}

=== FILE: pagination.dfy ===
/**
 * Keyset pagination over the active associations of one (source, type):
 * the (createdAt DESC, destinationId DESC) order, the rows a query may
 * return, and the sorting that produces them.
 */
module Pagination {
  import opened Wrappers
  import opened Schema

  /** A point of the listing order: a creation time and a destination id. */
  datatype Position = Position(createdAt: nat, destinationId: nat)

  function PositionOf(x: Item): Position {
    Position(x.createdAt, x.destinationId)
  }

  /** `x` lies strictly after `p` in the listing order (the keyset condition of the query). */
  predicate Below(x: Item, p: Position) {
    x.createdAt < p.createdAt || (x.createdAt == p.createdAt && x.destinationId < p.destinationId)
  }

  /** `a` is listed before `b`. */
  predicate Before(a: Item, b: Item) {
    Below(b, PositionOf(a))
  }

  /** Strictly descending in (createdAt, destinationId): ordered, and so free of repeats. */
  predicate SortedDesc(xs: seq<Item>) {
    forall i, j :: 0 <= i < j < |xs| ==> Before(xs[i], xs[j])
  }

  /** At most one item per destination id, as for the rows of one (source, type). */
  predicate KeyedByDestination(s: set<Item>) {
    forall x, y :: x in s && y in s && x.destinationId == y.destinationId ==> x == y
  }

  function Elems(xs: seq<Item>): set<Item> {
    set x | x in xs
  }

  function Min(a: nat, b: nat): nat {
    if a < b then a else b
  }

  /**
   * `rows` is the answer of a LIMIT query over `eligible`: descending, drawn
   * from `eligible`, of length min(limit, |eligible|), and every eligible row
   * left out comes after every row returned.
   */
  predicate IsPage(rows: seq<Item>, eligible: set<Item>, limit: nat) {
    && SortedDesc(rows)
    && Elems(rows) <= eligible
    && |rows| == Min(limit, |eligible|)
    && (forall x, i :: x in eligible && x !in rows && 0 <= i < |rows| ==> Before(rows[i], x))
  }

  /** Inserts `x` into a descending sequence at its place. */
  function Insert(xs: seq<Item>, x: Item): (r: seq<Item>)
    requires SortedDesc(xs)
    requires forall i :: 0 <= i < |xs| ==> xs[i].destinationId != x.destinationId
    ensures SortedDesc(r)
    ensures Elems(r) == Elems(xs) + {x}
    ensures |r| == |xs| + 1
  {
    if |xs| == 0 then [x]
    else if Before(x, xs[0]) then
      assert Elems([x] + xs) == Elems(xs) + {x};
      [x] + xs
    else
      var rest := Insert(xs[1..], x);
      assert Elems(xs) == {xs[0]} + Elems(xs[1..]) by {
        assert xs == [xs[0]] + xs[1..];
      }
      assert Before(xs[0], x);
      assert forall i :: 0 <= i < |xs[1..]| ==> Before(xs[0], xs[1..][i]);
      assert forall y :: y in Elems(rest) ==> Before(xs[0], y);
      assert Elems([xs[0]] + rest) == {xs[0]} + Elems(rest);
      [xs[0]] + rest
  }

  /** Lists a set of rows of one (source, type) in descending order. */
  method SortDesc(s: set<Item>) returns (xs: seq<Item>)
    requires KeyedByDestination(s)
    ensures SortedDesc(xs)
    ensures Elems(xs) == s
    ensures |xs| == |s|
  {
    xs := [];
    var rest := s;
    while rest != {}
      invariant rest <= s
      invariant SortedDesc(xs)
      invariant Elems(xs) == s - rest
      invariant |xs| + |rest| == |s|
      decreases |rest|
    {
      var x :| x in rest;
      assert forall i :: 0 <= i < |xs| ==> xs[i] in s - rest;
      xs := Insert(xs, x);
      rest := rest - {x};
    }
  }

  /** The first `limit` rows of a descending listing of `eligible` form its page. */
  lemma TakeIsPage(sorted: seq<Item>, eligible: set<Item>, limit: nat)
    requires SortedDesc(sorted) && Elems(sorted) == eligible && |sorted| == |eligible|
    ensures IsPage(sorted[..Min(limit, |sorted|)], eligible, limit)
  {
    var m := Min(limit, |sorted|);
    var rows := sorted[..m];
    forall x, i | x in eligible && x !in rows && 0 <= i < |rows|
      ensures Before(rows[i], x)
    {
      var j :| 0 <= j < |sorted| && sorted[j] == x;
      assert forall k :: 0 <= k < m ==> sorted[k] == rows[k] && rows[k] != x;
      assert i < m <= j;
    }
  }

  /** Joining two descending runs, the first wholly before the second, stays descending. */
  lemma SortedConcat(a: seq<Item>, b: seq<Item>)
    requires SortedDesc(a) && SortedDesc(b)
    requires forall i, j :: 0 <= i < |a| && 0 <= j < |b| ==> Before(a[i], b[j])
    ensures SortedDesc(a + b)
  {
    var c := a + b;
    forall i, j | 0 <= i < j < |c| ensures Before(c[i], c[j]) {
      if j < |a| {
        assert c[i] == a[i] && c[j] == a[j];
      } else if i < |a| {
        assert c[i] == a[i] && c[j] == b[j - |a|];
      } else {
        assert c[i] == b[i - |a|] && c[j] == b[j - |a|];
      }
    }
  }

  /** A descending sequence has no repeats, so it has as many elements as it has distinct ones. */
  lemma {:induction false} SortedDistinctCard(xs: seq<Item>)
    requires SortedDesc(xs)
    ensures |Elems(xs)| == |xs|
    decreases |xs|
  {
    if |xs| > 0 {
      var tail := xs[1..];
      SortedDistinctCard(tail);
      assert Elems(xs) == {xs[0]} + Elems(tail) by {
        assert xs == [xs[0]] + tail;
      }
      assert xs[0] !in Elems(tail) by {
        assert forall i :: 0 <= i < |tail| ==> Before(xs[0], tail[i]);
      }
    }
  }

  /** A page that is not full holds every eligible row. */
  lemma ShortPageIsEverything(rows: seq<Item>, eligible: set<Item>, limit: nat)
    requires IsPage(rows, eligible, limit) && |rows| < limit
    ensures Elems(rows) == eligible
  {
    SortedDistinctCard(rows);
    var missing := eligible - Elems(rows);
    assert eligible == Elems(rows) + missing;
    assert |eligible| == |Elems(rows)| + |missing|;
    assert missing == {};
  }
}

=== FILE: schema.dfy ===
/**
 * The persistent state: the two tables of the schema and the cache tier,
 * as immutable maps.
 */
module Schema {
  import opened Wrappers
  import opened Js
  import Constants

  /** A row of the `objects` table, without its id (the map key). */
  datatype ObjectRow = ObjectRow(objectType: string, data: Json, createdAt: nat, updatedAt: nat)

  /** An object as returned by a lookup: the id together with its row. */
  datatype ObjectRecord = ObjectRecord(id: nat, row: ObjectRow)

  /** The primary key of the `associations` table: (source, type, destination). */
  datatype AssocKey = AssocKey(sourceId: nat, assocType: string, destinationId: nat)

  /** The non-key columns of an association row. */
  datatype AssocRow = AssocRow(data: Json, createdAt: nat, status: int)

  /** An association as returned by a single-edge lookup. */
  datatype AssocRecord = AssocRecord(key: AssocKey, row: AssocRow)

  /** One element of a listing: the columns the listing query selects. */
  datatype Item = Item(destinationId: nat, data: Json, createdAt: nat)

  /** A listing page: its rows and the continuation cursor text, if any. */
  datatype Page = Page(items: seq<Item>, nextCursor: Option<string>)

  /**
   * The whole state: objects by id, the next AUTO_INCREMENT id, associations
   * by primary key, and cached pages by cache key.
   */
  datatype Store = Store(
    objects: map<nat, ObjectRow>,
    nextId: nat,
    assocs: map<AssocKey, AssocRow>,
    cache: map<string, Page>)

  /** Status column values: the default (1) is active, 0 is soft-deleted. */
  const Active: int := 1
  const Deleted: int := 0

  /** The empty database the schema creates. */
  const Empty: Store := Store(map[], 1, map[], map[])

  /**
   * What the handlers keep true: object ids are positive and below the
   * AUTO_INCREMENT counter (so never reused), and every stored type is on the
   * object allow-list; every association endpoint is an id that was issued
   * (the handlers insert an edge only between existing objects, and deleting
   * an object leaves its edges in place), and every status is Active or
   * Deleted.
   */
  predicate Valid(st: Store) {
    && st.nextId >= 1
    && (forall id :: id in st.objects ==> 1 <= id < st.nextId)
    && (forall id :: id in st.objects ==> st.objects[id].objectType in Constants.ObjectTypes)
    && (forall k :: k in st.assocs ==> 1 <= k.sourceId < st.nextId && 1 <= k.destinationId < st.nextId)
    && (forall k :: k in st.assocs ==> st.assocs[k].status == Active || st.assocs[k].status == Deleted)
  }

  /** The listing's view of a stored association. */
  function ItemOf(k: AssocKey, row: AssocRow): Item {
    Item(k.destinationId, row.data, row.createdAt)
  }
}

=== FILE: wrappers.dfy ===
/** Failure-compatible Option and Result types used throughout the model. */
module Wrappers {

  datatype Option<+T> = None | Some(value: T)

  /** The outcome of an operation that may fail; usable with `:-`. */
  datatype Result<+T, +E> = Ok(value: T) | Err(error: E) {

    predicate IsFailure() {
      Err?
    }

    function PropagateFailure<U>(): Result<U, E>
      requires Err?
    {
      Err(error)
    }

    function Extract(): T
      requires Ok?
    {
      value
    }
  }
}
